=== FILE: README.md ===
# mb_mqttbridge poll loop, modelled in Dafny

`mb_mqttbridge` is a gateway between Modbus RTU devices and an MQTT broker.
Its single program, `main.cc`, runs an endless poll loop. Each pass visits
every configured device and does the following:

- It learns the device's identity (vendor, product, version) through the
  Modbus identification query, caching each string once known.
- It subscribes once to `<maintopic>/+`.
- It selects a codec by the (vendor, product) pair.
- The codec reads registers and discrete inputs and publishes them as MQTT
  topics under the device's main topic.
- The codec then drains the MQTT messages buffered for `<maintopic>/` and
  turns them into coil and holding-register writes.
- The pass publishes `online` if nothing threw and `offline` otherwise.

This project models the deterministic core of that loop with pure functions
over immutable data:

- `words.dfy` (module `Words`): 16-bit register words, the low-word-first
  32-bit assembly, the two's-complement reinterpretations to `int16_t` and
  `int32_t`, and the truncating integer conversions.
- `topics.dfy` (`Topics`): topic names `maintopic/field` and the decimal
  indices appended to field names (`input3`, `temperature12`).
- `commands.dfy` (`Commands`): inbound command dispatch. Each model's
  dispatch block becomes a route table (one route per
  `if (topic == maintopic + "/field")` test, in source order). A buffer of
  messages maps to an ordered list of writes. Coil payload `"0"` means off;
  register payloads are parsed and kept to 16 bits.
- `rfidkey.dfy` (`RfidKey`): the RFID key text, lower-case hex byte pairs
  joined by `:`, built from a length-prefixed register block. It has both a
  functional definition and the loop as the source writes it.
- `bus.dfy` (`Bus`): the Modbus port, an oracle whose every operation either
  answers or fails (the library throws). Also the events a pass causes
  (reads, writes, publications, subscriptions, buffer drains), and the
  in-order issue of writes that stops at the first failing write.
- `identity.dfy` (`Identity`): the per-device cache, the lazy identity fill
  and the one-time subscription gate.
- `codecs.dfy` (`Codecs`): codec selection and the eight device codecs:
  - twin power relay, SHTC3, laser distance/weight, IO88, ADC/DAC;
  - both RFID readers;
  - chamber pump.

  Each codec is split into its reading half (reads and publications) and the
  shared tail (drain the buffer, issue the writes).
- `cycle.dfy` (`Cycle`): one pass over one device, its online/offline
  outcome, and consecutive passes over the same device.

Things the model takes as parameters:

- The Modbus library is the `Port` parameter.
- The MQTT client's effects are recorded as `Event`s.
- The string library's integer parser is a function parameter `parse`.
- What the array library yields when the twin relay codec indexes past the
  end of its discrete-input response is the port's `inputPastEnd` answer.
- The inbound buffer is a sequence of `Message`s.

## Model

| member | source | states |
|---|---|---|
| `Words.Assemble32` | main.cc:201-213 | the 32-bit value `lo \| hi << 16` has `hi` as its upper and `lo` as its lower 16 bits (division and remainder by 2^16 recover them) |
| `Words.Split32` | main.cc:402-407 | splitting any 32-bit value into two registers and reassembling it gives the value back |
| `Words.SplitAssemble` | main.cc:402-407 | assembling two registers and splitting the result recovers both registers, so the assembly is injective |
| `Words.Truncate8` | main.cc:148 | the configured address kept to 8 bits is congruent to it mod 256 and equal to it on 0..255 |
| `Words.Truncate16` | main.cc:295-296 | the conversion of a parsed integer to a 16-bit register keeps a value congruent mod 2^16 and is the identity on 0..65535 |
| `Words.ToInt16` | main.cc:261 | the `int16_t` reading of a register lies in [-32768, 32767], has the register's bit pattern, and is negative exactly when bit 15 is set |
| `Words.Int16RoundTrip` | main.cc:261 | every `int16_t` value survives the round trip through its register pattern |
| `Words.ToInt32` | main.cc:269 | the `int32_t` reading lies in the signed 32-bit range, has the same bit pattern, and is negative exactly when bit 31 is set |
| `Words.Int32RoundTrip` | main.cc:269 | every `int32_t` value survives the round trip through its 32-bit pattern |
| `Words.SignedAssembleSign` | main.cc:269 | the weight is negative iff the high register is at least 0x8000; it equals `lo + 65536*hi` when it is not, and that minus 2^32 when it is |
| `Topics.Decimal` | main.cc:281 | the index appended to a field name is a non-empty string of decimal digits whose value is the index, with no leading zero (the canonical rendering) |
| `Commands.RouteMessage` | main.cc:287-298 | one message yields at most as many writes as the table has routes, each the write of a route whose topic the message carries (the exact result is given by `Commands.RouteMessageMatch` and `Commands.RouteMessageNoMatch`) |
| `Commands.Dispatch` | main.cc:232-257 | a drained buffer yields at most (messages × routes) writes, each produced by one of its messages through the route table (the exact result is given by `Commands.DispatchAppend` and `Commands.DispatchOnePerMessage`) |
| `Commands.TargetValue` | main.cc:233-235 | a matched coil route writes off exactly for payload "0"; a matched register route writes its own register with a value congruent to the parsed payload mod 2^16 |
| `Commands.RouteMessageMatch` | main.cc:287-298 | with distinct fields, a message addressed to route k produces exactly that route's write |
| `Commands.RouteMessageNoMatch` | main.cc:287-298 | a message addressed to no field of the table produces no write |
| `Commands.DispatchAppend` | main.cc:232-257 | the writes for two buffers in sequence are the writes of the first followed by those of the second (message order is kept) |
| `Commands.DispatchIgnoresUnrouted` | main.cc:232-257 | a buffer without routed topics produces no write |
| `Commands.DispatchOnePerMessage` | main.cc:232-257 | when every message hits one route, the writes are one per message, in message order, each the hit route's write |
| `Commands.IndexedFieldsDiffer` | main.cc:288 | `output<a>` and `output<b>` (likewise `pwm<a>`, `pwm<b>`) are different fields when a != b |
| `Commands.Io88RoutesDistinct` | main.cc:287-298 | no two IO88 routes (`output0..7`, `pwm0..7`) listen on the same field |
| `Commands.TwinRelayCommand` | main.cc:231-257 | relais0/relais1 write coils 0/1; counter_autoreset4..7 write coils 2..5; the value is off iff the payload is "0"; any other topic writes nothing |
| `Commands.Io88Command` | main.cc:285-299 | `output<r>` writes coil r and `pwm<r>` writes register r with the parsed value's low 16 bits (r in 0..7); at most one write per message; other topics write nothing |
| `Commands.AdcDacCommand` | main.cc:311-321 | dac0/dac1 write registers 0/1 with the parsed value's low 16 bits; other topics write nothing |
| `Commands.ChamberPumpCommand` | main.cc:410-420 | triggerlevel_top/triggerlevel_bottom write registers 0/1 with the parsed value's low 16 bits; other topics write nothing |
| `RfidKey.HexDigit` | main.cc:331-335 | a nibble's character is a lower-case hex digit whose value is the nibble |
| `RfidKey.Group` | main.cc:331-336 | a key register's two characters are hex digits that spell the register's low byte, high nibble first |
| `RfidKey.KeyText` | main.cc:330-340 | the key of n registers has 3n-1 characters (two per byte, one ':' between bytes), and is empty for no registers |
| `RfidKey.KeyTextIsKey` | main.cc:330-340 | the joined groups have length 3n-1 and carry, at every position, the digit or separator prescribed for that position |
| `RfidKey.KeyTextSnoc` | main.cc:337-339 | appending a key register appends a ':' and that register's group |
| `RfidKey.KeyAlphabet` | main.cc:326-341 | a key contains only `0-9a-f:` |
| `RfidKey.KeyGroupDecodes` | main.cc:330-340 | group k of a key decodes back to the low byte of register k+1 of the block, and is followed by ':' unless it is the last |
| `RfidKey.KeyFromRegisters` | main.cc:325-342 | no key iff the length word is 0; for 1..10 the published key is the rendering of registers 1..n; a length above 10 is an overrun |
| `RfidKey.BuildKey` | main.cc:330-340 | the character-appending loop produces exactly the rendering of registers 1..n |
| `Bus.ReadBits` | main.cc:177 | a discrete-input read answers exactly when the port answers with the requested number of inputs, and then yields the port's inputs |
| `Bus.ReadWords` | main.cc:186 | an input-register read answers exactly when the port answers with the requested number of registers, and then yields the port's registers |
| `Bus.ExecWrites` | main.cc:232-257 | writes are issued in buffer order; the issue completes iff every write is acknowledged; a failing write is the last one issued and all before it were acknowledged |
| `Bus.ExecWritesFailure` | main.cc:232-257 | issuing writes throws exactly when some write of the list is not acknowledged |
| `Bus.ExecWritesUsesOnlyWrites` | main.cc:232-257 | issuing writes depends on nothing but the port's write operations |
| `Identity.FillField` | main.cc:151-155 | an absent field is queried once, stored (even if empty) and published on its own field, and those are its only events; a present field causes no query, no event and no change; the fill fails iff the query of an absent field fails |
| `Identity.FillIdentity` | main.cc:151-165 | known fields are never overwritten; the stage fails iff the query of some absent field fails; answers stored before a later failure are kept; after success all three fields are known; a fully known identity causes nothing (the exact final value of each field is `Identity.FillIdentityValues`) |
| `Identity.FillIdentityValues` | main.cc:151-165 | each field ends as it was if known, else as its own answer when its query is reached and answers, else absent: a field whose query fails or is never reached is not stored |
| `Identity.FillIdentityQueries` | main.cc:151-165 | vendor, product and version are each queried exactly when absent and no earlier query of the same pass failed |
| `Identity.SubscriptionGate` | main.cc:166-173 | with the slot empty, the slot takes the main topic and the subscription to `maintopic/+` is the only event; with the slot set, nothing happens |
| `Identity.SubscribeOnce` | main.cc:166-173 | with a non-empty main topic, a second pass through the gate subscribes nothing |
| `Codecs.FindModel` | main.cc:175-371 | the product tests select a model whose product string matches, and select none only when no model's string matches |
| `Codecs.Lookup` | main.cc:174-175 | a codec is selected only for the vendor "Bernd Walter Computer Technology" and a matching product string; no codec means no model matches |
| `Codecs.ProductNamesDistinct` | main.cc:175-371 | no two models share a product string, so at most one of the consecutive product tests fires |
| `Codecs.LookupFindsEveryModel` | main.cc:175-371 | every model is selected by its own identity |
| `Codecs.InputPublishes` | main.cc:277-283 | input k of a discrete-input read is published on `input<k>` as "1" or "0" from element k (the IO88 mapping, and the corrected twin relay mapping) |
| `Codecs.TwinRelayInputs` | main.cc:177-182 | as written: input0 agrees with the element-k mapping, input1 and input2 come from elements 2 and 3, input3 from what indexing past the end yields; if that throws, input0..input2 are already published and the readout fails |
| `Codecs.TwinRelayIgnoresElement1` | main.cc:179-182 | element 1 of the response never influences what the twin relay publishes |
| `Codecs.TwinRelayAsWrittenMisreads` | main.cc:177-182 | on the response `[false, true, false, false]` the as-written mapping publishes input1 as "0" and the element-k mapping publishes "1" |
| `Codecs.SensorRead` | main.cc:222-227 | a sensor's read comes first, and its publication, if any, is on that sensor's own temperature topic |
| `Codecs.SensorEvents` | main.cc:218-229 | every configured sensor's register is read, and only reads and temperature publications occur |
| `Codecs.SensorReadPublishes` | main.cc:222-227 | one sensor's temperature is published with value v iff its read answers v |
| `Codecs.SensorReadElsewhere` | main.cc:225 | one sensor's read publishes nothing on another sensor's topic |
| `Codecs.TemperatureTopicsDiffer` | main.cc:225 | distinct sensor indices publish on distinct topics |
| `Codecs.SensorTopicsFrom` | main.cc:220-228 | the sensors from index i on never publish on an earlier sensor's topic |
| `Codecs.SensorPublishes` | main.cc:218-229 | sensor i's temperature is published with value v iff its read answers v; a failing read publishes nothing for it and the loop goes on |
| `Codecs.TwinRelayReadout` | main.cc:176-229 | the pass starts with the 4-input read and throws iff that read, the element-4 access or the 14-register read throws (never because of a sensor) |
| `Codecs.Shtc3Readout` | main.cc:259-263 | the 2-register read comes first, and the readout throws iff that read does |
| `Codecs.LaserWeightReadout` | main.cc:266-272 | the 3-register read comes first, and the readout throws iff that read does |
| `Codecs.Io88Readout` | main.cc:277-283 | the readout throws iff the 8-input read does; otherwise it is that read followed by input k published from element k of the port's answer |
| `Codecs.AdcDacReadout` | main.cc:302-309 | the 10-register read comes first, and the readout throws iff that read does |
| `Codecs.RfidReadout` | main.cc:323-343 | the 11-register read comes first; the readout throws iff that read throws or the length word overruns the block; key k is published as text, without change suppression, iff the block holds key k; a length word of 0 leaves the read as the only event |
| `Codecs.ChamberPumpReadout` | main.cc:372-408 | the 9-register read comes first, and the readout throws iff that read does |
| `Codecs.ReadoutOf` | main.cc:174-409 | the reading half of every codec only reads and publishes |
| `Codecs.ReadoutFailureIgnoresSensors` | main.cc:222-227 | whether a codec's reading half throws does not depend on the DS18B20 single-register reads |
| `Codecs.RunCodec` | main.cc:174-423 | a codec never queries identity or subscribes; the buffer is drained iff the reading half did not throw; the codec throws iff the reading half throws or issuing the drained writes throws |
| `Codecs.RunCodecFailure` | main.cc:177-420 | a codec throws iff a read throws or one of the writes the drained commands map to is not acknowledged |
| `Cycle.CodecStage` | main.cc:174-423 | the codec stage causes only codec events |
| `Cycle.Conclude` | main.cc:166-429 | after a successful identity stage, the status is online iff the codec did not throw; the identity stage's events come first; the subscription happens iff the slot was empty; every event comes from the identity stage, the gate, the codec or the final status |
| `Cycle.ConcludeWithoutCommands` | main.cc:166-429 | when the codec stage only read and published, the end of the pass drains nothing and writes nothing |
| `Cycle.ConcludeDependsOnFailure` | main.cc:425-429 | the status and the stored cache at the end of a pass depend on the codec stage only through whether it threw |
| `Cycle.ConcludeQuiet` | main.cc:151-173 | the end of a pass makes no identification query and, once the slot is set, no subscription |
| `Cycle.PollDevice` | main.cc:150-430 | every pass ends with the status publication and stores the matching status; identity fields and a set main-topic slot are never lost; an online device is fully identified |
| `Cycle.PassStartsWithIdentity` | main.cc:150-173 | a pass begins with its identity stage's events, and subscribes exactly when that stage completes with the main-topic slot empty |
| `Cycle.NewDeviceIdentity` | main.cc:151-165 | for a device never seen before, the vendor is queried, and the identity stage completes exactly when all three queries answer |
| `Cycle.NewDeviceFirstPass` | main.cc:150-173 | the first pass over a new device queries its vendor, and subscribes to `maintopic/+` exactly when all three identification queries answer |
| `Cycle.IdentifyFailureGoesOffline` | main.cc:151-165 | a failing query of an absent identity field makes the pass offline, with no subscription and no codec traffic |
| `Cycle.UnknownDeviceOnline` | main.cc:174-426 | a known identity without a codec is reported online after at most the subscription |
| `Cycle.SubscribeWhileSlotEmpty` | main.cc:166-173 | after a successful identity stage, the pass subscribes iff the slot was empty, and the slot then holds the main topic |
| `Cycle.OnlineIffCompletes` | main.cc:150-429 | online iff the identity stage completes and, for a device with a codec, its reads answer and every write is acknowledged |
| `Cycle.SensorFailuresIgnored` | main.cc:222-227 | ports that differ only in single-register reads give the same status and the same cache |
| `Cycle.ReadFailureSkipsCommands` | main.cc:150-231 | when the identity stage completes, selects a codec and a read of that codec throws (on the first pass as on any other), the pass is offline with nothing drained and nothing written |
| `Cycle.SettledDeviceQuiet` | main.cc:151-173 | a fully identified device is never queried again; a device with its slot set is never subscribed again |
| `Cycle.RunCycles` | main.cc:137-173 | over consecutive passes, known identity fields and a set main-topic slot are kept, and a status is recorded |
| `Cycle.OnlineThenNoRequery` | main.cc:151-165 | after one online pass, the device stays identified through any later passes, and a further pass, whatever the field bus answers, queries no identity field |

## Left out

- The Modbus transport and the MQTT client are external libraries.
  - Modbus operations are the oracle `Port`.
  - The port is a function of the request, so within one pass identical
    requests get identical answers. Two identical buffered commands, for
    example, are both acknowledged or both fail, where the source issues
    two Modbus transactions that could time out independently.
  - Publications, subscriptions and buffer drains are recorded as events.
  - Publish-if-changed suppression is kept only as a flag on the event.
- Configuration loading, option parsing, signal handling, the library
  initialisation, the 10 ms sleep and the endless outer loop are process
  plumbing.
- The subscription to every configured main topic before the loop starts
  (main.cc:128-135) is setup, not part of a pass.
- The hand-over of the per-device cache through a mutex-protected swap
  (main.cc:141-143, 169-171, 431-433) is concurrency plumbing. A stale copy
  handed to the next device can undo another device's cache update. The
  model keeps one cache per device, and `RunCycles` describes a bus whose
  only device is this one.
- The DS18B20 temperature is `value / 16` as a double. Floating point is not
  modelled: the payload `Sixteenths(v)` carries the raw register.
- Decimal rendering of published numbers and integer parsing of payloads are
  string-library conversions.
  - Numbers are published as `Number(n)`.
  - The parser is the parameter `parse`; its result is truncated explicitly.
  - Only the indices appended to field names are rendered, by `Decimal`.
- The chamber-pump state switch (main.cc:380-398) computes a value that is
  never used. The model publishes the literal "empty" that the source
  publishes.
- `Bus.ReadBits` and `Bus.ReadWords`: a response of another length than
  requested is treated as a failure. The library's behaviour on a short
  response is not visible here.
- `RfidKey.KeyFromRegisters`: a length word above 10 makes the source index
  past its 11-register block. What that does depends on the array library.
  The model treats it as an exception, so the pass goes offline.
- `Codecs.ReadoutOf`: its contract states only which kinds of events occur.
- `Codecs.TwinRelayReadout`: the contract states the first read, when the
  readout throws and which kinds of events occur. The register-to-topic
  mapping (counters, light sensors, the 32-bit counters 4..7 assembled low
  register first) is given only by the definition.
- `Codecs.Shtc3Readout`: the contract states the first read, when the
  readout throws and which kinds of events occur. The register-to-topic
  mapping (signed temperature, humidity) is given only by the definition.
- `Codecs.LaserWeightReadout`: the contract states the first read, when the
  readout throws and which kinds of events occur. The register-to-topic
  mapping (signed 32-bit weight, distance) is given only by the definition.
- `Codecs.AdcDacReadout`: the contract states the first read, when the
  readout throws and which kinds of events occur. The register-to-topic
  mapping (adc0..adc3, `ref` from register 9) is given only by the
  definition.
- `Codecs.ChamberPumpReadout`: the contract states the first read, when the
  readout throws and which kinds of events occur. The register-to-topic
  mapping (adc0..adc3, state, cycle counter, cycle time) is given only by
  the definition.
- `Codecs.TwinRelayReadout`: the source indexes element 4 of its
  four-element discrete-input response. What that yields belongs to the
  array library, so the port's `inputPastEnd` answer supplies it: a value
  published as input3, or an exception that makes the pass offline.
  The model follows the source as written here. The element-k mapping
  `Codecs.InputPublishes` is stated next to it, not used by the pass.
- `Cycle.OnlineIffCompletes`: the MQTT calls (`publish_ifchanged`, `publish`,
  `subscribe`, `get_rxbuf`) and the integer parser `getll` run inside the
  same try block as the Modbus calls. The model assumes they never throw,
  so "online" here means that no Modbus operation and no out-of-range
  access threw.
- The identity strings are compared as plain strings. The product tests in
  the source are consecutive independent `if`s rather than an `else if`
  chain. `Codecs.ProductNamesDistinct` shows this makes no difference.
- Facts about `main.cc` that the model keeps as they are:
  - an empty identity answer is stored and treated as known;
  - a known identity without a codec is reported online;
  - the subscription is gated only on the main-topic slot, not on whether
    a codec exists;
  - `main.cc` has no poll scheduler, minimum interval, back-off or static
    identity override, so the model has none either.

## Findings

| source | as written | input that shows it | evidently intended | confidence | as-written member | corrected member |
|---|---|---|---|---|---|---|
| main.cc:177-182 | the twin relay reads 4 discrete inputs, then publishes input0..input3 from elements 0, 2, 3 and 4 of the response | the response `[false, true, false, false]`, with only input 1 set: input1 is published as "0"; element 4 lies past the end of every well-formed response | input k from element k, as the IO88 codec does (main.cc:280-282) | not executed | `Codecs.TwinRelayInputs` (used by `Codecs.TwinRelayReadout`), `Codecs.TwinRelayAsWrittenMisreads`, `Codecs.TwinRelayIgnoresElement1` | `Codecs.InputPublishes` |

=== FILE: bus.dfy ===
/** The boundary between the poll loop and its two libraries. The field-bus
    port is an oracle: each operation either answers or fails (the library
    throws). What the loop does to the outside world is recorded as an
    ordered list of events: field-bus requests, publications and
    subscriptions on the message bus, and drains of the inbound buffer. */
module Bus {
  import opened Outcomes
  import opened Words
  import opened Commands

  /** The field-bus port, per device address. Reads and identification
      queries answer or fail; a write is acknowledged (true) or fails.
      `inputPastEnd` is what the array library yields when the twin relay
      codec indexes element 4 of its four-element discrete-input response:
      a value, or an exception. */
  datatype Port = Port(
    identification: (uint8, nat) -> Result<string>,
    readDiscreteInputs: (uint8, nat, nat) -> Result<seq<bool>>,
    inputPastEnd: uint8 -> Result<bool>,
    readInputRegisters: (uint8, nat, nat) -> Result<seq<uint16>>,
    readInputRegister: (uint8, uint16) -> Result<uint16>,
    writeCoil: (uint8, nat, bool) -> bool,
    writeRegister: (uint8, nat, uint16) -> bool)

  /** A published value. Numbers are handed to the string library for
      decimal rendering; `Sixteenths(v)` is the floating-point value v/16. */
  datatype Payload =
    | Text(text: string)
    | Number(n: int)
    | Sixteenths(raw: uint16)

  /** One observable step of a poll cycle. */
  datatype Event =
    | Identify(index: nat)
    | ReadDiscreteInputs(start: nat, count: nat)
    | ReadInputRegisters(start: nat, count: nat)
    | ReadInputRegister(register: uint16)
    | IssueWrite(write: Write)
    | Publish(topic: string, payload: Payload, onlyIfChanged: bool)
    | Subscribe(filter: string)
    | Drain(prefix: string)

  /** The events of a piece of a cycle, and whether it ended by an
      exception. */
  datatype Trace = Trace(events: seq<Event>, failed: bool)

  /** Events a codec may cause: anything but identification queries and
      subscriptions, which belong to the loop itself. */
  predicate CodecEvent(e: Event)
  {
    !e.Identify? && !e.Subscribe?
  }

  /** Events of the reading half of a codec: reads and publications. */
  predicate ReadoutEvent(e: Event)
  {
    e.ReadDiscreteInputs? || e.ReadInputRegisters? || e.ReadInputRegister? || e.Publish?
  }

  /** A read of `count` discrete inputs. A response of another length is
      malformed, which the library reports as a failure. */
  function ReadBits(port: Port, address: uint8, start: nat, count: nat): (r: Result<seq<bool>>)
    ensures var answer := port.readDiscreteInputs(address, start, count);
      r.Ok? <==> answer.Ok? && |answer.value| == count
    ensures r.Ok? ==> r.value == port.readDiscreteInputs(address, start, count).value
    ensures r.Ok? ==> |r.value| == count
  {
    match port.readDiscreteInputs(address, start, count)
    case Ok(bits) => if |bits| == count then Ok(bits) else Fail
    case Fail => Fail
  }

  /** A read of `count` input registers; a response of another length is a
      failure. */
  function ReadWords(port: Port, address: uint8, start: nat, count: nat): (r: Result<seq<uint16>>)
    ensures var answer := port.readInputRegisters(address, start, count);
      r.Ok? <==> answer.Ok? && |answer.value| == count
    ensures r.Ok? ==> r.value == port.readInputRegisters(address, start, count).value
    ensures r.Ok? ==> |r.value| == count
  {
    match port.readInputRegisters(address, start, count)
    case Ok(words) => if |words| == count then Ok(words) else Fail
    case Fail => Fail
  }

  /** Whether the device acknowledges one write. */
  function WriteAcknowledged(port: Port, address: uint8, w: Write): bool
  {
    match w
    case WriteCoil(i, on) => port.writeCoil(address, i, on)
    case WriteRegister(i, word) => port.writeRegister(address, i, word)
  }

  /** Issues writes in order; the first failing write throws and the rest
      are never issued. */
  function ExecWrites(port: Port, address: uint8, ws: seq<Write>): (t: Trace)
    ensures |t.events| <= |ws|
    ensures forall i :: 0 <= i < |t.events| ==> t.events[i] == IssueWrite(ws[i])
    ensures !t.failed <==> forall i :: 0 <= i < |ws| ==> WriteAcknowledged(port, address, ws[i])
    ensures !t.failed ==> |t.events| == |ws|
    ensures t.failed ==> 1 <= |t.events| && !WriteAcknowledged(port, address, ws[|t.events| - 1])
    ensures forall i :: 0 <= i < |t.events| - 1 ==> WriteAcknowledged(port, address, ws[i])
    ensures forall e :: e in t.events ==> e.IssueWrite?
    decreases |ws|
  {
    if |ws| == 0 then Trace([], false)
    else if !WriteAcknowledged(port, address, ws[0]) then Trace([IssueWrite(ws[0])], true)
    else
      var rest := ExecWrites(port, address, ws[1..]);
      assert forall i :: 1 <= i < |ws| ==> ws[i] == ws[1..][i - 1];
      var t := Trace([IssueWrite(ws[0])] + rest.events, rest.failed);
      assert forall i :: 1 <= i < |t.events| ==> t.events[i] == rest.events[i - 1];
      t
  }

  /** Issuing writes throws exactly when some write is not acknowledged. */
  lemma ExecWritesFailure(port: Port, address: uint8, ws: seq<Write>)
    ensures ExecWrites(port, address, ws).failed <==> exists i :: 0 <= i < |ws| && !WriteAcknowledged(port, address, ws[i])
  {
    var w := ExecWrites(port, address, ws);
    if w.failed {
      var k := |w.events| - 1;
      assert 0 <= k < |ws| && !WriteAcknowledged(port, address, ws[k]);
    }
  }

  /** Issuing writes involves only the write operations of the port: two
      ports that answer writes alike give the same trace. */
  lemma {:induction false} ExecWritesUsesOnlyWrites(p: Port, q: Port, address: uint8, ws: seq<Write>)
    requires p.writeCoil == q.writeCoil && p.writeRegister == q.writeRegister
    ensures ExecWrites(p, address, ws) == ExecWrites(q, address, ws)
    decreases |ws|
  {
    if |ws| > 0 {
      ExecWritesUsesOnlyWrites(p, q, address, ws[1..]);
    }
  }

}

=== FILE: codecs.dfy ===
/** The device models the gateway knows, selected by the (vendor, product)
    identity strings, and what one poll of each does: which registers it
    reads, what it publishes, and how it turns the drained command buffer
    into writes. */
module Codecs {
  import opened Outcomes
  import opened Words
  import opened Topics
  import opened Commands
  import opened Bus
  import RfidKey

  /** The only vendor with codecs. */
  const VendorName: string := "Bernd Walter Computer Technology"

  datatype DeviceModel =
    | TwinRelay
    | Shtc3
    | LaserWeight
    | Io88
    | AdcDac
    | RfidDisplay
    | RfidWriter
    | ChamberPump

  /** The product identification string of each model. */
  function ProductName(m: DeviceModel): string
  {
    match m
    case TwinRelay => "Ethernet-MB RS485 / twin power relay / 4ch input / LDR / DS18B20"
    case Shtc3 => "RS485-SHTC3"
    case LaserWeight => "RS485-Laserdistance-Weight"
    case Io88 => "RS485-IO88"
    case AdcDac => "MB ADC DAC"
    case RfidDisplay => "125kHz RFID Reader / Display"
    case RfidWriter => "125kHz RFID Reader / Writer-Beta"
    case ChamberPump => "RS485-Chamberpump"
  }

  /** The models in the order the source tests their product strings. */
  const Models: seq<DeviceModel> :=
    [TwinRelay, Shtc3, LaserWeight, Io88, AdcDac, RfidDisplay, RfidWriter, ChamberPump]

  /** The first of `models` whose product string is `product`. */
  function FindModel(product: string, models: seq<DeviceModel>): (r: Option<DeviceModel>)
    ensures r.Some? ==> r.value in models && product == ProductName(r.value)
    ensures r.None? ==> forall m :: m in models ==> product != ProductName(m)
    decreases |models|
  {
    if |models| == 0 then None
    else if product == ProductName(models[0]) then Some(models[0])
    else FindModel(product, models[1..])
  }

  /** Codec selection: the vendor test, then the product tests in source
      order. A device whose identity matches no model has no codec. */
  function Lookup(vendor: string, product: string): (r: Option<DeviceModel>)
    ensures r.Some? ==> vendor == VendorName && product == ProductName(r.value)
    ensures r.None? ==> forall m: DeviceModel :: !(vendor == VendorName && product == ProductName(m))
  {
    if vendor != VendorName then None
    else
      assert forall m: DeviceModel :: m in Models by {
        forall m: DeviceModel
          ensures m in Models
        {
          ModelsComplete(m);
        }
      }
      FindModel(product, Models)
  }

  /** `Models` lists every model. */
  lemma ModelsComplete(m: DeviceModel)
    ensures m in Models
  {
    match m
    case TwinRelay => assert Models[0] == m;
    case Shtc3 => assert Models[1] == m;
    case LaserWeight => assert Models[2] == m;
    case Io88 => assert Models[3] == m;
    case AdcDac => assert Models[4] == m;
    case RfidDisplay => assert Models[5] == m;
    case RfidWriter => assert Models[6] == m;
    case ChamberPump => assert Models[7] == m;
  }

  /** No two models share a product string. */
  lemma ProductNamesDistinct(a: DeviceModel, b: DeviceModel)
    requires ProductName(a) == ProductName(b)
    ensures a == b
  {
    var s, t := ProductName(a), ProductName(b);
    assert |s| == |t| && s[0] == t[0];
  }

  /** Every model is found under its own identity, so the product strings
      select the models one to one. */
  lemma LookupFindsEveryModel(m: DeviceModel)
    ensures Lookup(VendorName, ProductName(m)) == Some(m)
  {
    var r := Lookup(VendorName, ProductName(m));
    ProductNamesDistinct(r.value, m);
  }

  /** The command routes of each model; models without a dispatch block
      drain their buffer and discard it. */
  function RoutesOf(m: DeviceModel): seq<Route>
  {
    match m
    case TwinRelay => TwinRelayRoutes
    case Io88 => Io88Routes()
    case AdcDac => AdcDacRoutes
    case ChamberPump => ChamberPumpRoutes
    case _ => []
  }

  /** A change-suppressed publication of one field. */
  function Pub(mainTopic: string, field: string, p: Payload): Event
  {
    Publish(Topic(mainTopic, field), p, true)
  }

  /** Change-suppressed publications of several fields, in order. */
  function Fields(mainTopic: string, fs: seq<(string, Payload)>): (es: seq<Event>)
    ensures |es| == |fs|
    ensures forall i :: 0 <= i < |fs| ==> es[i] == Pub(mainTopic, fs[i].0, fs[i].1)
    ensures forall e :: e in es ==> e.Publish?
  {
    seq(|fs|, i requires 0 <= i < |fs| => Pub(mainTopic, fs[i].0, fs[i].1))
  }

  /** A boolean input rendered as "1" or "0". */
  function Bit(b: bool): Payload
  {
    Text(if b then "1" else "0")
  }

  /** The inputs of a discrete-input read, input k published on `input<k>`
      from element k of the response. */
  function InputPublishes(mainTopic: string, bits: seq<bool>): (es: seq<Event>)
    ensures |es| == |bits|
    ensures forall k :: 0 <= k < |bits| ==> es[k] == Pub(mainTopic, "input" + Decimal(k), Bit(bits[k]))
    ensures forall e :: e in es ==> e.Publish?
    decreases |bits|
  {
    if |bits| == 0 then []
    else
      var k := |bits| - 1;
      InputPublishes(mainTopic, bits[..k]) + [Pub(mainTopic, "input" + Decimal(k), Bit(bits[k]))]
  }

  /** Number of discrete inputs the twin relay codec reads. */
  const TwinRelayInputCount: nat := 4

  /** The twin relay's input publications as the source writes them:
      `input0..input3` from elements 0, 2, 3 and 4 of a four-element
      response. Element 1 is never published, and element 4 lies past the
      end of the response: what it yields is `pastEnd`, and if indexing it
      throws, the publications of input0..input2 have already happened. */
  function TwinRelayInputs(mainTopic: string, bits: seq<bool>, pastEnd: Result<bool>): (r: Trace)
    requires |bits| == TwinRelayInputCount
    ensures r.failed <==> pastEnd.Fail?
    ensures |r.events| == if r.failed then 3 else 4
    ensures forall e :: e in r.events ==> e.Publish?
    ensures r.events[0] == InputPublishes(mainTopic, bits)[0]
    ensures r.events[1] == Pub(mainTopic, "input1", Bit(bits[2]))
    ensures r.events[2] == Pub(mainTopic, "input2", Bit(bits[3]))
    ensures pastEnd.Ok? ==> r.events[3] == Pub(mainTopic, "input3", Bit(pastEnd.value))
  {
    assert Decimal(0) == "0";
    var e := [ Pub(mainTopic, "input0", Bit(bits[0])),
               Pub(mainTopic, "input1", Bit(bits[2])),
               Pub(mainTopic, "input2", Bit(bits[3])) ];
    match pastEnd
    case Fail => Trace(e, true)
    case Ok(b) => Trace(e + [Pub(mainTopic, "input3", Bit(b))], false)
  }

  /** Element 1 of the response has no influence: flipping it changes
      nothing the twin relay publishes. */
  lemma TwinRelayIgnoresElement1(mainTopic: string, bits: seq<bool>, pastEnd: Result<bool>, b: bool)
    requires |bits| == TwinRelayInputCount
    ensures TwinRelayInputs(mainTopic, bits[1 := b], pastEnd) == TwinRelayInputs(mainTopic, bits, pastEnd)
  {
  }

  /** The discrepancy: with only input 1 active, the as-written mapping
      publishes input1 as "0" where the corrected mapping publishes "1",
      whatever lies past the end of the response. */
  lemma TwinRelayAsWrittenMisreads(mainTopic: string, pastEnd: Result<bool>)
    ensures var bits := [false, true, false, false];
      && TwinRelayInputs(mainTopic, bits, pastEnd).events[1] == Pub(mainTopic, "input1", Text("0"))
      && InputPublishes(mainTopic, bits)[1] == Pub(mainTopic, "input1", Text("1"))
  {
    assert Decimal(1) == "1";
  }

  /** The temperatures of the configured DS18B20 sensors, sensor i read from
      the input register its configuration names. A failing read is
      swallowed: nothing is published for that sensor and the cycle goes
      on. */
  function SensorEvents(port: Port, address: uint8, mainTopic: string, sensors: seq<int>, first: nat): (es: seq<Event>)
    ensures forall e :: e in es ==> e.ReadInputRegister? || (e.Publish? && e.payload.Sixteenths?)
    ensures forall i :: 0 <= i < |sensors| ==> ReadInputRegister(Truncate16(sensors[i])) in es
    decreases |sensors|
  {
    if |sensors| == 0 then []
    else
      var rest := SensorEvents(port, address, mainTopic, sensors[1..], first + 1);
      assert forall i :: 1 <= i < |sensors| ==> sensors[i] == sensors[1..][i - 1];
      SensorRead(port, address, mainTopic, Truncate16(sensors[0]), first) + rest
  }

  /** The read of one sensor, and its publication on `temperature<index>`
      if the read answers. */
  function SensorRead(port: Port, address: uint8, mainTopic: string, register: uint16, index: nat): (es: seq<Event>)
    ensures |es| >= 1 && es[0] == ReadInputRegister(register)
    ensures forall e :: e in es ==> e.ReadInputRegister? || (e.Publish? && e.payload.Sixteenths?)
    ensures forall e :: e in es && e.Publish? ==> e.topic == Topic(mainTopic, "temperature" + Decimal(index))
  {
    match port.readInputRegister(address, register)
    case Fail => [ReadInputRegister(register)]
    case Ok(v) => [ReadInputRegister(register), Pub(mainTopic, "temperature" + Decimal(index), Sixteenths(v))]
  }

  /** Distinct sensor indices publish on distinct topics. */
  lemma TemperatureTopicsDiffer(mainTopic: string, a: nat, b: nat)
    requires a != b
    ensures Topic(mainTopic, "temperature" + Decimal(a)) != Topic(mainTopic, "temperature" + Decimal(b))
  {
    var n := |mainTopic| + 12;
    assert Topic(mainTopic, "temperature" + Decimal(a))[n..] == Decimal(a);
    assert Topic(mainTopic, "temperature" + Decimal(b))[n..] == Decimal(b);
    assert DecimalValue(Decimal(a)) != DecimalValue(Decimal(b));
  }

  /** Sensor readings publish on `temperature<i>` for sensor indices i
      from `first` on, so no earlier index's topic appears. */
  lemma {:induction false} SensorTopicsFrom(port: Port, address: uint8, mainTopic: string, sensors: seq<int>, first: nat,
                                            k: nat, p: Payload)
    requires k < first
    ensures Pub(mainTopic, "temperature" + Decimal(k), p) !in SensorEvents(port, address, mainTopic, sensors, first)
    decreases |sensors|
  {
    if |sensors| > 0 {
      SensorTopicsFrom(port, address, mainTopic, sensors[1..], first + 1, k, p);
      SensorReadElsewhere(port, address, mainTopic, Truncate16(sensors[0]), first, k, p);
    }
  }

  /** Sensor i's temperature is published with value v exactly when the
      read of its register answers v; a failing read publishes nothing for
      that sensor, and the sensors after it are still read. */
  lemma {:induction false} SensorPublishes(port: Port, address: uint8, mainTopic: string, sensors: seq<int>, first: nat,
                                           i: nat, v: uint16)
    requires i < |sensors|
    ensures Pub(mainTopic, "temperature" + Decimal(first + i), Sixteenths(v)) in SensorEvents(port, address, mainTopic, sensors, first)
            <==> port.readInputRegister(address, Truncate16(sensors[i])) == Ok(v)
    decreases |sensors|
  {
    var target := Pub(mainTopic, "temperature" + Decimal(first + i), Sixteenths(v));
    var here := SensorRead(port, address, mainTopic, Truncate16(sensors[0]), first);
    var rest := SensorEvents(port, address, mainTopic, sensors[1..], first + 1);
    assert SensorEvents(port, address, mainTopic, sensors, first) == here + rest;
    assert target in here + rest <==> target in here || target in rest;
    if i == 0 {
      SensorTopicsFrom(port, address, mainTopic, sensors[1..], first + 1, first, Sixteenths(v));
      SensorReadPublishes(port, address, mainTopic, Truncate16(sensors[0]), first, v);
    } else {
      SensorPublishes(port, address, mainTopic, sensors[1..], first + 1, i - 1, v);
      assert sensors[1..][i - 1] == sensors[i];
      SensorReadElsewhere(port, address, mainTopic, Truncate16(sensors[0]), first, first + i, Sixteenths(v));
    }
  }

  /** One sensor's read publishes nothing on another sensor's topic. */
  lemma SensorReadElsewhere(port: Port, address: uint8, mainTopic: string, register: uint16, index: nat, k: nat, p: Payload)
    requires k != index
    ensures Pub(mainTopic, "temperature" + Decimal(k), p) !in SensorRead(port, address, mainTopic, register, index)
  {
    TemperatureTopicsDiffer(mainTopic, index, k);
  }

  /** One sensor's read publishes value v exactly when it answers v. */
  lemma SensorReadPublishes(port: Port, address: uint8, mainTopic: string, register: uint16, index: nat, v: uint16)
    ensures Pub(mainTopic, "temperature" + Decimal(index), Sixteenths(v)) in SensorRead(port, address, mainTopic, register, index)
            <==> port.readInputRegister(address, register) == Ok(v)
  {
  }

  /** Twin power relay: discrete inputs (as written, see `TwinRelayInputs`),
      counters and light sensors, the 32-bit counters 4..7 (low register
      first), then the DS18B20 sensors. */
  function TwinRelayReadout(port: Port, address: uint8, mainTopic: string, sensors: seq<int>): (r: Trace)
    ensures forall e :: e in r.events ==> ReadoutEvent(e)
    ensures r.failed <==>
      || ReadBits(port, address, 0, TwinRelayInputCount).Fail?
      || port.inputPastEnd(address).Fail?
      || ReadWords(port, address, 0, 14).Fail?
    ensures |r.events| >= 1 && r.events[0] == ReadDiscreteInputs(0, TwinRelayInputCount)
  {
    var e0 := [ReadDiscreteInputs(0, TwinRelayInputCount)];
    match ReadBits(port, address, 0, TwinRelayInputCount)
    case Fail => Trace(e0, true)
    case Ok(bits) =>
      var inputs := TwinRelayInputs(mainTopic, bits, port.inputPastEnd(address));
      if inputs.failed then Trace(e0 + inputs.events, true)
      else
        var e1 := e0 + inputs.events + [ReadInputRegisters(0, 14)];
        match ReadWords(port, address, 0, 14)
        case Fail => Trace(e1, true)
        case Ok(w) =>
          Trace(e1 + Fields(mainTopic, [
            ("counter0", Number(w[0])),
            ("counter1", Number(w[1])),
            ("counter2", Number(w[2])),
            ("counter3", Number(w[3])),
            ("ldr0", Number(w[4])),
            ("ldr1", Number(w[5])),
            ("counter4", Number(Assemble32(w[6], w[7]))),
            ("counter5", Number(Assemble32(w[8], w[9]))),
            ("counter6", Number(Assemble32(w[10], w[11]))),
            ("counter7", Number(Assemble32(w[12], w[13])))
          ]) + SensorEvents(port, address, mainTopic, sensors, 0), false)
  }

  /** SHTC3: signed temperature and unsigned humidity. */
  function Shtc3Readout(port: Port, address: uint8, mainTopic: string): (r: Trace)
    ensures forall e :: e in r.events ==> ReadoutEvent(e)
    ensures r.failed <==> ReadWords(port, address, 0, 2).Fail?
    ensures |r.events| >= 1 && r.events[0] == ReadInputRegisters(0, 2)
  {
    var e0 := [ReadInputRegisters(0, 2)];
    match ReadWords(port, address, 0, 2)
    case Fail => Trace(e0, true)
    case Ok(w) =>
      Trace(e0 + Fields(mainTopic, [
        ("temperature", Number(ToInt16(w[0]))),
        ("humidity", Number(w[1]))
      ]), false)
  }

  /** Laser distance / weight: signed 32-bit weight (low register first)
      and unsigned distance. */
  function LaserWeightReadout(port: Port, address: uint8, mainTopic: string): (r: Trace)
    ensures forall e :: e in r.events ==> ReadoutEvent(e)
    ensures r.failed <==> ReadWords(port, address, 0, 3).Fail?
    ensures |r.events| >= 1 && r.events[0] == ReadInputRegisters(0, 3)
  {
    var e0 := [ReadInputRegisters(0, 3)];
    match ReadWords(port, address, 0, 3)
    case Fail => Trace(e0, true)
    case Ok(w) =>
      Trace(e0 + Fields(mainTopic, [
        ("weight", Number(ToInt32(Assemble32(w[0], w[1])))),
        ("distance", Number(w[2]))
      ]), false)
  }

  /** IO88: eight discrete inputs. */
  function Io88Readout(port: Port, address: uint8, mainTopic: string): (r: Trace)
    ensures forall e :: e in r.events ==> ReadoutEvent(e)
    ensures r.failed <==> ReadBits(port, address, 0, 8).Fail?
    ensures !r.failed ==> r.events == [ReadDiscreteInputs(0, 8)] + InputPublishes(mainTopic, port.readDiscreteInputs(address, 0, 8).value)
  {
    var e0 := [ReadDiscreteInputs(0, 8)];
    match ReadBits(port, address, 0, 8)
    case Fail => Trace(e0, true)
    case Ok(bits) => Trace(e0 + InputPublishes(mainTopic, bits), false)
  }

  /** ADC/DAC: four converter inputs and the reference. */
  function AdcDacReadout(port: Port, address: uint8, mainTopic: string): (r: Trace)
    ensures forall e :: e in r.events ==> ReadoutEvent(e)
    ensures r.failed <==> ReadWords(port, address, 0, 10).Fail?
    ensures |r.events| >= 1 && r.events[0] == ReadInputRegisters(0, 10)
  {
    var e0 := [ReadInputRegisters(0, 10)];
    match ReadWords(port, address, 0, 10)
    case Fail => Trace(e0, true)
    case Ok(w) =>
      Trace(e0 + Fields(mainTopic, [
        ("adc0", Number(w[0])),
        ("adc1", Number(w[1])),
        ("adc2", Number(w[2])),
        ("adc3", Number(w[3])),
        ("ref", Number(w[9]))
      ]), false)
  }

  /** Both RFID readers: the key, if a card is present, published without
      change suppression. A length word above 10 counts as a failure. */
  function RfidReadout(port: Port, address: uint8, mainTopic: string): (r: Trace)
    ensures forall e :: e in r.events ==> ReadoutEvent(e)
    ensures |r.events| >= 1 && r.events[0] == ReadInputRegisters(0, RfidKey.BlockSize)
    ensures var w := ReadWords(port, address, 0, RfidKey.BlockSize);
      r.failed <==> w.Fail? || RfidKey.KeyFromRegisters(w.value).Overrun?
    ensures forall e :: e in r.events && e.Publish? ==> e.topic == Topic(mainTopic, "key") && !e.onlyIfChanged && e.payload.Text?
    ensures var w := ReadWords(port, address, 0, RfidKey.BlockSize);
      w.Ok? && w.value[0] == 0 ==> r == Trace([ReadInputRegisters(0, RfidKey.BlockSize)], false)
    ensures var w := ReadWords(port, address, 0, RfidKey.BlockSize);
      forall k :: Publish(Topic(mainTopic, "key"), Text(k), false) in r.events <==>
        w.Ok? && RfidKey.KeyFromRegisters(w.value) == RfidKey.Key(k)
  {
    var e0 := [ReadInputRegisters(0, RfidKey.BlockSize)];
    match ReadWords(port, address, 0, RfidKey.BlockSize)
    case Fail => Trace(e0, true)
    case Ok(w) =>
      match RfidKey.KeyFromRegisters(w)
      case Overrun => Trace(e0, true)
      case NoKey => Trace(e0, false)
      case Key(k) => Trace(e0 + [Publish(Topic(mainTopic, "key"), Text(k), false)], false)
  }

  /** Chamber pump: four converter inputs, the state (always published as
      "empty"), and the 32-bit cycle counter and cycle time (low register
      first). */
  function ChamberPumpReadout(port: Port, address: uint8, mainTopic: string): (r: Trace)
    ensures forall e :: e in r.events ==> ReadoutEvent(e)
    ensures r.failed <==> ReadWords(port, address, 0, 9).Fail?
    ensures |r.events| >= 1 && r.events[0] == ReadInputRegisters(0, 9)
  {
    var e0 := [ReadInputRegisters(0, 9)];
    match ReadWords(port, address, 0, 9)
    case Fail => Trace(e0, true)
    case Ok(w) =>
      Trace(e0 + Fields(mainTopic, [
        ("adc0", Number(w[0])),
        ("adc1", Number(w[1])),
        ("adc2", Number(w[2])),
        ("adc3", Number(w[3])),
        ("state", Text("empty")),
        ("cyclecounter", Number(Assemble32(w[5], w[6]))),
        ("cycletime", Number(Assemble32(w[7], w[8])))
      ]), false)
  }

  /** The reading half of the poll of model `m`. */
  function ReadoutOf(m: DeviceModel, port: Port, address: uint8, mainTopic: string, sensors: seq<int>): (r: Trace)
    ensures forall e :: e in r.events ==> ReadoutEvent(e)
  {
    match m
    case TwinRelay => TwinRelayReadout(port, address, mainTopic, sensors)
    case Shtc3 => Shtc3Readout(port, address, mainTopic)
    case LaserWeight => LaserWeightReadout(port, address, mainTopic)
    case Io88 => Io88Readout(port, address, mainTopic)
    case AdcDac => AdcDacReadout(port, address, mainTopic)
    case RfidDisplay => RfidReadout(port, address, mainTopic)
    case RfidWriter => RfidReadout(port, address, mainTopic)
    case ChamberPump => ChamberPumpReadout(port, address, mainTopic)
  }

  /** Whether a readout throws does not depend on the single-register
      reads of the DS18B20 sensors. */
  lemma ReadoutFailureIgnoresSensors(m: DeviceModel, port: Port, sensorRead: (uint8, uint16) -> Result<uint16>,
                                     address: uint8, mainTopic: string, sensors: seq<int>)
    ensures ReadoutOf(m, port.(readInputRegister := sensorRead), address, mainTopic, sensors).failed
         == ReadoutOf(m, port, address, mainTopic, sensors).failed
  {
    var q := port.(readInputRegister := sensorRead);
    assert ReadBits(q, address, 0, TwinRelayInputCount) == ReadBits(port, address, 0, TwinRelayInputCount);
    assert ReadWords(q, address, 0, 14) == ReadWords(port, address, 0, 14);
  }

  /** One poll of a device of model `m`: the readout; then, unless a read
      threw, drain the buffered commands of `maintopic/` and issue the
      writes they map to, stopping at the first write that throws. */
  function RunCodec(m: DeviceModel, port: Port, address: uint8, mainTopic: string, sensors: seq<int>,
                    parse: string -> int, inbox: seq<Message>): (t: Trace)
    ensures forall e :: e in t.events ==> CodecEvent(e)
    ensures Drain(mainTopic + "/") in t.events <==> !ReadoutOf(m, port, address, mainTopic, sensors).failed
    ensures t.failed <==>
      || ReadoutOf(m, port, address, mainTopic, sensors).failed
      || ExecWrites(port, address, Dispatch(RoutesOf(m), mainTopic, parse, inbox)).failed
  {
    var r := ReadoutOf(m, port, address, mainTopic, sensors);
    if r.failed then r
    else
      var w := ExecWrites(port, address, Dispatch(RoutesOf(m), mainTopic, parse, inbox));
      var t := Trace(r.events + [Drain(mainTopic + "/")] + w.events, w.failed);
      assert forall e :: e in t.events ==> e in r.events || e == Drain(mainTopic + "/") || e in w.events;
      t
  }

  /** A poll throws exactly when a read throws or one of the writes the
      drained commands map to is not acknowledged. */
  lemma RunCodecFailure(m: DeviceModel, port: Port, address: uint8, mainTopic: string, sensors: seq<int>,
                        parse: string -> int, inbox: seq<Message>)
    ensures var ws := Dispatch(RoutesOf(m), mainTopic, parse, inbox);
      RunCodec(m, port, address, mainTopic, sensors, parse, inbox).failed <==>
        || ReadoutOf(m, port, address, mainTopic, sensors).failed
        || exists i :: 0 <= i < |ws| && !WriteAcknowledged(port, address, ws[i])
  {
    ExecWritesFailure(port, address, Dispatch(RoutesOf(m), mainTopic, parse, inbox));
  }

}

=== FILE: commands.dfy ===
/** Inbound commands: messages drained from a device's topic tree are turned
    into an ordered list of coil and register writes. Each device model has
    a route table; a route is one `if (topic == maintopic + "/<field>")` test
    of that model's dispatch block, in source order. */
module Commands {
  import opened Words
  import opened Topics

  /** A buffered inbound message. */
  datatype Message = Message(topic: string, payload: string)

  /** A write issued to the device. */
  datatype Write =
    | WriteCoil(index: nat, on: bool)
    | WriteRegister(index: nat, word: uint16)

  /** A route: the field whose topic triggers it, and the coil or holding
      register it writes. */
  datatype Route =
    | CoilRoute(field: string, index: nat)
    | RegisterRoute(field: string, index: nat)

  /** A coil payload: the string "0" switches off, anything else on. */
  function CoilValue(payload: string): bool
  {
    payload != "0"
  }

  /** A register payload: the integer the string library parses from it
      (`parse`, supplied by the caller), kept to its low 16 bits by the
      conversion to a 16-bit register. */
  function RegisterValue(parse: string -> int, payload: string): uint16
  {
    Truncate16(parse(payload))
  }

  /** The write a route performs for a message that matched it. */
  function Target(route: Route, parse: string -> int, m: Message): Write
  {
    match route
    case CoilRoute(_, i) => WriteCoil(i, CoilValue(m.payload))
    case RegisterRoute(_, i) => WriteRegister(i, RegisterValue(parse, m.payload))
  }

  /** One route tested against one message. */
  function Fire(route: Route, mainTopic: string, parse: string -> int, m: Message): seq<Write>
  {
    if m.topic == Topic(mainTopic, route.field) then [Target(route, parse, m)] else []
  }

  /** All routes of a table tested against one message, in table order. */
  function RouteMessage(routes: seq<Route>, mainTopic: string, parse: string -> int, m: Message): (ws: seq<Write>)
    ensures |ws| <= |routes|
    ensures forall w :: w in ws ==>
      exists k :: 0 <= k < |routes| && m.topic == Topic(mainTopic, routes[k].field) && w == Target(routes[k], parse, m)
    decreases |routes|
  {
    if |routes| == 0 then []
    else
      var rest := RouteMessage(routes[1..], mainTopic, parse, m);
      assert forall k :: 1 <= k < |routes| ==> routes[1..][k - 1] == routes[k];
      Fire(routes[0], mainTopic, parse, m) + rest
  }

  /** The writes a drained buffer produces: message by message, in arrival
      order, each message through the whole route table. */
  function Dispatch(routes: seq<Route>, mainTopic: string, parse: string -> int, msgs: seq<Message>): (ws: seq<Write>)
    ensures |ws| <= |msgs| * |routes|
    ensures forall w :: w in ws ==> exists i :: 0 <= i < |msgs| && w in RouteMessage(routes, mainTopic, parse, msgs[i])
    decreases |msgs|
  {
    if |msgs| == 0 then []
    else
      var rest := Dispatch(routes, mainTopic, parse, msgs[1..]);
      assert forall i :: 1 <= i < |msgs| ==> msgs[1..][i - 1] == msgs[i];
      RouteMessage(routes, mainTopic, parse, msgs[0]) + rest
  }

  /** No two routes of a table listen on the same field. */
  predicate DistinctFields(routes: seq<Route>)
  {
    forall i, j :: 0 <= i < j < |routes| ==> routes[i].field != routes[j].field
  }

  /** A message addressed to none of the table's fields produces no write. */
  predicate Unrouted(routes: seq<Route>, mainTopic: string, m: Message)
  {
    forall k :: 0 <= k < |routes| ==> m.topic != Topic(mainTopic, routes[k].field)
  }

  /** The written value follows the payload: a coil is switched off exactly
      by the payload "0", a register receives the low 16 bits of the parsed
      number. */
  lemma TargetValue(route: Route, parse: string -> int, m: Message)
    ensures route.CoilRoute? ==> Target(route, parse, m) == WriteCoil(route.index, m.payload != "0")
    ensures route.CoilRoute? ==> (!Target(route, parse, m).on <==> m.payload == "0")
    ensures route.RegisterRoute? ==> Target(route, parse, m).WriteRegister?
    ensures route.RegisterRoute? ==> Target(route, parse, m).index == route.index
    ensures route.RegisterRoute? ==> (parse(m.payload) - Target(route, parse, m).word) % 0x1_0000 == 0
  {
  }

  /** A message routed by a table with distinct fields produces exactly the
      one write of the route it is addressed to. */
  lemma {:induction false} RouteMessageMatch(routes: seq<Route>, mainTopic: string, parse: string -> int, m: Message, k: nat)
    requires DistinctFields(routes)
    requires k < |routes|
    requires m.topic == Topic(mainTopic, routes[k].field)
    ensures RouteMessage(routes, mainTopic, parse, m) == [Target(routes[k], parse, m)]
    decreases |routes|
  {
    if k == 0 {
      assert Unrouted(routes[1..], mainTopic, m) by {
        forall j | 0 <= j < |routes[1..]|
          ensures m.topic != Topic(mainTopic, routes[1..][j].field)
        {
          assert routes[1..][j] == routes[j + 1];
          if m.topic == Topic(mainTopic, routes[j + 1].field) {
            TopicInjective(mainTopic, routes[0].field, routes[j + 1].field);
          }
        }
      }
      RouteMessageNoMatch(routes[1..], mainTopic, parse, m);
    } else {
      assert routes[1..][k - 1] == routes[k];
      if m.topic == Topic(mainTopic, routes[0].field) {
        TopicInjective(mainTopic, routes[0].field, routes[k].field);
      }
      RouteMessageMatch(routes[1..], mainTopic, parse, m, k - 1);
    }
  }

  /** A message addressed to no field of the table produces no write. */
  lemma {:induction false} RouteMessageNoMatch(routes: seq<Route>, mainTopic: string, parse: string -> int, m: Message)
    requires Unrouted(routes, mainTopic, m)
    ensures RouteMessage(routes, mainTopic, parse, m) == []
    decreases |routes|
  {
    if |routes| > 0 {
      assert m.topic != Topic(mainTopic, routes[0].field);
      assert Unrouted(routes[1..], mainTopic, m) by {
        forall j | 0 <= j < |routes[1..]|
          ensures m.topic != Topic(mainTopic, routes[1..][j].field)
        {
          assert routes[1..][j] == routes[j + 1];
        }
      }
      RouteMessageNoMatch(routes[1..], mainTopic, parse, m);
    }
  }

  /** Dispatch keeps message order: the writes for a concatenation of two
      buffers are the writes of the first followed by those of the second. */
  lemma {:induction false} DispatchAppend(routes: seq<Route>, mainTopic: string, parse: string -> int, a: seq<Message>, b: seq<Message>)
    ensures Dispatch(routes, mainTopic, parse, a + b)
         == Dispatch(routes, mainTopic, parse, a) + Dispatch(routes, mainTopic, parse, b)
    decreases |a|
  {
    if |a| == 0 {
      assert a + b == b;
    } else {
      assert (a + b)[1..] == a[1..] + b;
      DispatchAppend(routes, mainTopic, parse, a[1..], b);
    }
  }

  /** A buffer none of whose messages is addressed to a routed field
      produces no write at all. */
  lemma {:induction false} DispatchIgnoresUnrouted(routes: seq<Route>, mainTopic: string, parse: string -> int, msgs: seq<Message>)
    requires forall i :: 0 <= i < |msgs| ==> Unrouted(routes, mainTopic, msgs[i])
    ensures Dispatch(routes, mainTopic, parse, msgs) == []
    decreases |msgs|
  {
    if |msgs| > 0 {
      RouteMessageNoMatch(routes, mainTopic, parse, msgs[0]);
      assert forall i :: 0 <= i < |msgs[1..]| ==> msgs[1..][i] == msgs[i + 1];
      DispatchIgnoresUnrouted(routes, mainTopic, parse, msgs[1..]);
    }
  }

  /** A table with one distinct-field route per message produces exactly one
      write per message, in message order. */
  lemma {:induction false} DispatchOnePerMessage(routes: seq<Route>, mainTopic: string, parse: string -> int, msgs: seq<Message>, hit: seq<nat>)
    requires DistinctFields(routes)
    requires |hit| == |msgs|
    requires forall i :: 0 <= i < |msgs| ==> hit[i] < |routes| && msgs[i].topic == Topic(mainTopic, routes[hit[i]].field)
    ensures |Dispatch(routes, mainTopic, parse, msgs)| == |msgs|
    ensures forall i :: 0 <= i < |msgs| ==> Dispatch(routes, mainTopic, parse, msgs)[i] == Target(routes[hit[i]], parse, msgs[i])
    decreases |msgs|
  {
    if |msgs| > 0 {
      var first := Target(routes[hit[0]], parse, msgs[0]);
      RouteMessageMatch(routes, mainTopic, parse, msgs[0], hit[0]);
      assert forall i :: 0 <= i < |msgs[1..]| ==> msgs[1..][i] == msgs[i + 1] && hit[1..][i] == hit[i + 1];
      DispatchOnePerMessage(routes, mainTopic, parse, msgs[1..], hit[1..]);
      var rest := Dispatch(routes, mainTopic, parse, msgs[1..]);
      var d := Dispatch(routes, mainTopic, parse, msgs);
      assert d == [first] + rest;
      forall i | 0 <= i < |msgs|
        ensures d[i] == Target(routes[hit[i]], parse, msgs[i])
      {
        if i > 0 {
          assert d[i] == rest[i - 1];
        }
      }
    }
  }

  // ----- route tables of the device models -----

  /** Twin power relay: relays on coils 0 and 1, the auto-reset switches of
      the 32-bit counters 4..7 on coils 2..5. */
  const TwinRelayRoutes: seq<Route> := [
    CoilRoute("relais0", 0),
    CoilRoute("relais1", 1),
    CoilRoute("counter_autoreset4", 2),
    CoilRoute("counter_autoreset5", 3),
    CoilRoute("counter_autoreset6", 4),
    CoilRoute("counter_autoreset7", 5)
  ]

  /** IO88: outputs 0..7 on coils 0..7 (`output<r>`), then PWM outputs
      0..7 on holding registers 0..7 (`pwm<r>`). */
  function Io88Routes(): seq<Route>
  {
    seq(16, i requires 0 <= i < 16 =>
      if i < 8 then CoilRoute("output" + Decimal(i), i) else RegisterRoute("pwm" + Decimal(i - 8), i - 8))
  }

  /** ADC/DAC: the two DAC outputs on holding registers 0 and 1. */
  const AdcDacRoutes: seq<Route> := [
    RegisterRoute("dac0", 0),
    RegisterRoute("dac1", 1)
  ]

  /** Chamber pump: the top and bottom trigger levels on holding registers
      0 and 1. */
  const ChamberPumpRoutes: seq<Route> := [
    RegisterRoute("triggerlevel_top", 0),
    RegisterRoute("triggerlevel_bottom", 1)
  ]

  lemma TwinRelayRoutesDistinct()
    ensures DistinctFields(TwinRelayRoutes)
  {
  }

  lemma Io88RoutesDistinct()
    ensures DistinctFields(Io88Routes())
  {
    var routes := Io88Routes();
    Io88RoutesShape();
    forall i, j | 0 <= i < j < |routes|
      ensures routes[i].field != routes[j].field
    {
      if j < 8 {
        IndexedFieldsDiffer("output", i, j);
      } else if i >= 8 {
        IndexedFieldsDiffer("pwm", i - 8, j - 8);
      } else {
        assert routes[i].field[0] == 'o';
        assert routes[j].field[0] == 'p';
      }
    }
  }

  /** Distinct indices below one prefix give distinct field names. */
  lemma IndexedFieldsDiffer(prefix: string, a: nat, b: nat)
    requires a != b
    ensures prefix + Decimal(a) != prefix + Decimal(b)
  {
    assert (prefix + Decimal(a))[|prefix|..] == Decimal(a);
    assert (prefix + Decimal(b))[|prefix|..] == Decimal(b);
  }

  /** The IO88 table lists the eight output coils, then the eight PWM
      registers. */
  lemma Io88RoutesShape()
    ensures |Io88Routes()| == 16
    ensures forall r :: 0 <= r < 8 ==> Io88Routes()[r] == CoilRoute("output" + Decimal(r), r)
    ensures forall r :: 0 <= r < 8 ==> Io88Routes()[8 + r] == RegisterRoute("pwm" + Decimal(r), r)
  {
  }

  /** Twin power relay commands: `relais0`/`relais1` switch coils 0/1,
      `counter_autoreset4..7` switch coils 2..5, "0" meaning off; any
      other topic writes nothing. */
  lemma TwinRelayCommand(mainTopic: string, parse: string -> int, m: Message)
    ensures RouteMessage(TwinRelayRoutes, mainTopic, parse, m) ==
      if m.topic == Topic(mainTopic, "relais0") then [WriteCoil(0, m.payload != "0")]
      else if m.topic == Topic(mainTopic, "relais1") then [WriteCoil(1, m.payload != "0")]
      else if m.topic == Topic(mainTopic, "counter_autoreset4") then [WriteCoil(2, m.payload != "0")]
      else if m.topic == Topic(mainTopic, "counter_autoreset5") then [WriteCoil(3, m.payload != "0")]
      else if m.topic == Topic(mainTopic, "counter_autoreset6") then [WriteCoil(4, m.payload != "0")]
      else if m.topic == Topic(mainTopic, "counter_autoreset7") then [WriteCoil(5, m.payload != "0")]
      else []
  {
    TwinRelayRoutesDistinct();
    var routes := TwinRelayRoutes;
    if k :| 0 <= k < 6 && m.topic == Topic(mainTopic, routes[k].field) {
      RouteMessageMatch(routes, mainTopic, parse, m, k);
    } else {
      RouteMessageNoMatch(routes, mainTopic, parse, m);
    }
  }

  /** IO88 commands: `output<r>` switches coil r and `pwm<r>` sets holding
      register r to the low 16 bits of the parsed payload, for r in 0..7;
      every message writes at most once, and any other topic writes nothing. */
  lemma Io88Command(mainTopic: string, parse: string -> int, m: Message)
    ensures forall r :: 0 <= r < 8 && m.topic == Topic(mainTopic, "output" + Decimal(r)) ==>
      RouteMessage(Io88Routes(), mainTopic, parse, m) == [WriteCoil(r, m.payload != "0")]
    ensures forall r :: 0 <= r < 8 && m.topic == Topic(mainTopic, "pwm" + Decimal(r)) ==>
      RouteMessage(Io88Routes(), mainTopic, parse, m) == [WriteRegister(r, Truncate16(parse(m.payload)))]
    ensures |RouteMessage(Io88Routes(), mainTopic, parse, m)| <= 1
    ensures (forall r :: 0 <= r < 8 ==>
               m.topic != Topic(mainTopic, "output" + Decimal(r)) && m.topic != Topic(mainTopic, "pwm" + Decimal(r)))
      ==> RouteMessage(Io88Routes(), mainTopic, parse, m) == []
  {
    var routes := Io88Routes();
    Io88RoutesDistinct();
    Io88RoutesShape();
    forall r | 0 <= r < 8 && m.topic == Topic(mainTopic, "output" + Decimal(r))
      ensures RouteMessage(routes, mainTopic, parse, m) == [WriteCoil(r, m.payload != "0")]
    {
      RouteMessageMatch(routes, mainTopic, parse, m, r);
    }
    forall r | 0 <= r < 8 && m.topic == Topic(mainTopic, "pwm" + Decimal(r))
      ensures RouteMessage(routes, mainTopic, parse, m) == [WriteRegister(r, Truncate16(parse(m.payload)))]
    {
      RouteMessageMatch(routes, mainTopic, parse, m, 8 + r);
    }
    if exists k :: 0 <= k < 16 && m.topic == Topic(mainTopic, routes[k].field) {
      var k :| 0 <= k < 16 && m.topic == Topic(mainTopic, routes[k].field);
      RouteMessageMatch(routes, mainTopic, parse, m, k);
    } else {
      RouteMessageNoMatch(routes, mainTopic, parse, m);
    }
  }

  /** ADC/DAC commands: `dac0`/`dac1` set holding register 0/1 to the low
      16 bits of the parsed payload; any other topic writes nothing. */
  lemma AdcDacCommand(mainTopic: string, parse: string -> int, m: Message)
    ensures RouteMessage(AdcDacRoutes, mainTopic, parse, m) ==
      if m.topic == Topic(mainTopic, "dac0") then [WriteRegister(0, Truncate16(parse(m.payload)))]
      else if m.topic == Topic(mainTopic, "dac1") then [WriteRegister(1, Truncate16(parse(m.payload)))]
      else []
  {
    if m.topic == Topic(mainTopic, "dac0") {
      RouteMessageMatch(AdcDacRoutes, mainTopic, parse, m, 0);
    } else if m.topic == Topic(mainTopic, "dac1") {
      RouteMessageMatch(AdcDacRoutes, mainTopic, parse, m, 1);
    } else {
      RouteMessageNoMatch(AdcDacRoutes, mainTopic, parse, m);
    }
  }

  /** Chamber pump commands: `triggerlevel_top`/`triggerlevel_bottom` set
      holding register 0/1 to the low 16 bits of the parsed payload; any
      other topic writes nothing. */
  lemma ChamberPumpCommand(mainTopic: string, parse: string -> int, m: Message)
    ensures RouteMessage(ChamberPumpRoutes, mainTopic, parse, m) ==
      if m.topic == Topic(mainTopic, "triggerlevel_top") then [WriteRegister(0, Truncate16(parse(m.payload)))]
      else if m.topic == Topic(mainTopic, "triggerlevel_bottom") then [WriteRegister(1, Truncate16(parse(m.payload)))]
      else []
  {
    if m.topic == Topic(mainTopic, "triggerlevel_top") {
      RouteMessageMatch(ChamberPumpRoutes, mainTopic, parse, m, 0);
    } else if m.topic == Topic(mainTopic, "triggerlevel_bottom") {
      RouteMessageMatch(ChamberPumpRoutes, mainTopic, parse, m, 1);
    } else {
      RouteMessageNoMatch(ChamberPumpRoutes, mainTopic, parse, m);
    }
  }

}

=== FILE: cycle.dfy ===
/** One pass of the poll loop over one device: fill the identity cache,
    subscribe once, run the codec the identity selects, and publish the
    resulting status. Any exception inside the pass makes the status
    "offline"; a pass that completes publishes "online". */
module Cycle {
  import opened Outcomes
  import opened Words
  import opened Topics
  import opened Commands
  import opened Bus
  import opened Identity
  import opened Codecs
  import RfidKey

  /** The configuration entry of one device: its main topic, its address as
      configured (kept to 8 bits), and the input registers of its DS18B20
      sensors, in configuration order. */
  datatype DeviceConfig = DeviceConfig(mainTopic: string, address: int, sensors: seq<int>)

  /** The cache after the pass, what the pass did, and its status. */
  datatype CycleResult = CycleResult(cache: DeviceCache, events: seq<Event>, online: bool)

  /** The status publication that ends every pass. */
  function StatusEvent(mainTopic: string, online: bool): Event
  {
    Publish(Topic(mainTopic, "status"), Text(if online then "online" else "offline"), true)
  }

  /** The codec stage: nothing for an identity without a codec. */
  function CodecStage(cfg: DeviceConfig, port: Port, parse: string -> int, cache: DeviceCache, inbox: seq<Message>): (t: Trace)
    requires Identified(cache)
    ensures forall e :: e in t.events ==> CodecEvent(e)
  {
    match Lookup(cache.vendor.value, cache.product.value)
    case None => Trace([], false)
    case Some(m) => RunCodec(m, port, Truncate8(cfg.address), cfg.mainTopic, cfg.sensors, parse, inbox)
  }

  /** The rest of a pass whose identity stage completed: the subscription
      gate, the codec stage that produced `codec`, and the status, which is
      "online" exactly when the codec stage did not throw. */
  function Conclude(cfg: DeviceConfig, id: IdentityFill, codec: Trace): (r: CycleResult)
    requires forall e :: e in id.events ==> e.Identify? || e.Publish?
    requires forall e :: e in codec.events ==> CodecEvent(e)
    ensures r.online == !codec.failed
    ensures r.cache == SubscriptionGate(id.cache, cfg.mainTopic).cache.(status := Some(if r.online then Online else Offline))
    ensures r.cache.vendor == id.cache.vendor && r.cache.product == id.cache.product && r.cache.version == id.cache.version
    ensures id.cache.mainTopic != "" ==> r.cache.mainTopic == id.cache.mainTopic
    ensures |r.events| >= 1 && r.events[|r.events| - 1] == StatusEvent(cfg.mainTopic, r.online)
    ensures |id.events| <= |r.events| && r.events[..|id.events|] == id.events
    ensures Subscribe(Topic(cfg.mainTopic, "+")) in r.events <==> id.cache.mainTopic == ""
    ensures forall e :: e in r.events ==>
      || e in id.events
      || (e == Subscribe(Topic(cfg.mainTopic, "+")) && id.cache.mainTopic == "")
      || e in codec.events
      || e == StatusEvent(cfg.mainTopic, r.online)
  {
    var gate := SubscriptionGate(id.cache, cfg.mainTopic);
    var online := !codec.failed;
    var events := id.events + gate.events + codec.events + [StatusEvent(cfg.mainTopic, online)];
    assert forall e :: e in events ==> e in id.events || e in gate.events || e in codec.events || e == StatusEvent(cfg.mainTopic, online);
    var sub := Subscribe(Topic(cfg.mainTopic, "+"));
    assert gate.events == if id.cache.mainTopic == "" then [sub] else [];
    assert sub !in id.events;
    assert !CodecEvent(sub);
    assert sub !in codec.events;
    assert sub in events <==> sub in gate.events;
    CycleResult(gate.cache.(status := Some(if online then Online else Offline)), events, online)
  }

  /** The end of a pass queries no identity field the identity stage did
      not query, and subscribes nothing once the slot is set. */
  lemma ConcludeQuiet(cfg: DeviceConfig, id: IdentityFill, codec: Trace)
    requires forall e :: e in id.events ==> e.Identify? || e.Publish?
    requires forall e :: e in codec.events ==> CodecEvent(e)
    ensures var r := Conclude(cfg, id, codec);
      && (id.events == [] ==> forall e :: e in r.events ==> !e.Identify?)
      && (id.cache.mainTopic != "" ==> forall e :: e in r.events ==> !e.Subscribe?)
  {
    var r := Conclude(cfg, id, codec);
    forall e | e in r.events
      ensures id.events == [] ==> !e.Identify?
      ensures id.cache.mainTopic != "" ==> !e.Subscribe?
    {
      if e in codec.events {
        assert CodecEvent(e);
      }
    }
  }

  /** One pass over one device. `port` answers the field-bus operations,
      `parse` is the string library's integer parser, `inbox` the messages
      buffered for the device's topics. */
  function PollDevice(cfg: DeviceConfig, port: Port, parse: string -> int, cache: DeviceCache, inbox: seq<Message>): (r: CycleResult)
    ensures r.cache.status == Some(if r.online then Online else Offline)
    ensures |r.events| >= 1 && r.events[|r.events| - 1] == StatusEvent(cfg.mainTopic, r.online)
    ensures IdentityKept(cache, r.cache)
    ensures cache.mainTopic != "" ==> r.cache.mainTopic == cache.mainTopic
    ensures r.online ==> Identified(r.cache)
  {
    var id := FillIdentity(port, Truncate8(cfg.address), cfg.mainTopic, cache);
    if id.failed then
      CycleResult(id.cache.(status := Some(Offline)), id.events + [StatusEvent(cfg.mainTopic, false)], false)
    else
      Conclude(cfg, id, CodecStage(cfg, port, parse, id.cache, inbox))
  }

  /** A pass begins with the events of its identity stage, and subscribes
      exactly when that stage completes with the main-topic slot empty. */
  lemma PassStartsWithIdentity(cfg: DeviceConfig, port: Port, parse: string -> int, cache: DeviceCache, inbox: seq<Message>)
    ensures var id := FillIdentity(port, Truncate8(cfg.address), cfg.mainTopic, cache);
      var r := PollDevice(cfg, port, parse, cache, inbox);
      && |id.events| <= |r.events| && r.events[..|id.events|] == id.events
      && (Subscribe(Topic(cfg.mainTopic, "+")) in r.events <==> !id.failed && cache.mainTopic == "")
  {
    var id := FillIdentity(port, Truncate8(cfg.address), cfg.mainTopic, cache);
    var r := PollDevice(cfg, port, parse, cache, inbox);
    if id.failed {
      assert r.events == id.events + [StatusEvent(cfg.mainTopic, false)];
    } else {
      assert r == Conclude(cfg, id, CodecStage(cfg, port, parse, id.cache, inbox));
    }
  }

  /** The identity stage of a device never seen before queries its vendor,
      and completes exactly when all three identification queries answer. */
  lemma NewDeviceIdentity(port: Port, address: uint8, mainTopic: string)
    ensures var id := FillIdentity(port, address, mainTopic, EmptyCache);
      && Identify(0) in id.events
      && (!id.failed <==> forall i :: 0 <= i < 3 ==> port.identification(address, i).Ok?)
  {
    FillIdentityQueries(port, address, mainTopic, EmptyCache);
    var id := FillIdentity(port, address, mainTopic, EmptyCache);
    if !id.failed {
      forall i | 0 <= i < 3
        ensures port.identification(address, i).Ok?
      {
        assert i == 0 || i == 1 || i == 2;
      }
    }
  }

  /** The first pass over a device never seen before queries its vendor,
      and subscribes to `maintopic/+` exactly when all three
      identification queries answer. */
  lemma NewDeviceFirstPass(cfg: DeviceConfig, port: Port, parse: string -> int, inbox: seq<Message>)
    ensures var r := PollDevice(cfg, port, parse, EmptyCache, inbox);
      var address := Truncate8(cfg.address);
      && Identify(0) in r.events
      && (Subscribe(Topic(cfg.mainTopic, "+")) in r.events <==>
            forall i :: 0 <= i < 3 ==> port.identification(address, i).Ok?)
  {
    var address := Truncate8(cfg.address);
    var id := FillIdentity(port, address, cfg.mainTopic, EmptyCache);
    NewDeviceIdentity(port, address, cfg.mainTopic);
    PassStartsWithIdentity(cfg, port, parse, EmptyCache, inbox);
    var r := PollDevice(cfg, port, parse, EmptyCache, inbox);
    assert Identify(0) in r.events[..|id.events|];
  }

  /** A failing identification query of an absent field ends the pass
      offline: no subscription, no codec, nothing drained or written. */
  lemma IdentifyFailureGoesOffline(cfg: DeviceConfig, port: Port, parse: string -> int, cache: DeviceCache, inbox: seq<Message>)
    requires
      var address := Truncate8(cfg.address);
      || (cache.vendor.None? && port.identification(address, 0).Fail?)
      || (cache.product.None? && port.identification(address, 1).Fail?)
      || (cache.version.None? && port.identification(address, 2).Fail?)
    ensures var r := PollDevice(cfg, port, parse, cache, inbox);
      && !r.online
      && r.cache.status == Some(Offline)
      && r.cache.mainTopic == cache.mainTopic
      && forall e :: e in r.events ==> e.Identify? || e.Publish?
  {
    var address := Truncate8(cfg.address);
    var id := FillIdentity(port, address, cfg.mainTopic, cache);
    assert id.failed;
  }

  /** A device whose identity is known but matches no model is polled for
      nothing and still reported "online". */
  lemma UnknownDeviceOnline(cfg: DeviceConfig, port: Port, parse: string -> int, cache: DeviceCache, inbox: seq<Message>)
    requires Identified(cache)
    requires Lookup(cache.vendor.value, cache.product.value).None?
    ensures var r := PollDevice(cfg, port, parse, cache, inbox);
      && r.online
      && forall e :: e in r.events ==> e.Subscribe? || e == StatusEvent(cfg.mainTopic, true)
  {
  }

  /** The main-topic slot gates the subscription: a pass whose identity
      stage succeeds subscribes to `maintopic/+` exactly when the slot was
      empty, and afterwards the slot holds the main topic. */
  lemma SubscribeWhileSlotEmpty(cfg: DeviceConfig, port: Port, parse: string -> int, cache: DeviceCache, inbox: seq<Message>)
    requires !FillIdentity(port, Truncate8(cfg.address), cfg.mainTopic, cache).failed
    ensures var r := PollDevice(cfg, port, parse, cache, inbox);
      && (Subscribe(Topic(cfg.mainTopic, "+")) in r.events <==> cache.mainTopic == "")
      && r.cache.mainTopic == (if cache.mainTopic == "" then cfg.mainTopic else cache.mainTopic)
  {
  }

  /** The status is "online" exactly when nothing in the pass throws: the
      identity stage completes, and, for a device with a codec, its reads
      answer and every write the drained commands map to is acknowledged. */
  lemma OnlineIffCompletes(cfg: DeviceConfig, port: Port, parse: string -> int, cache: DeviceCache, inbox: seq<Message>)
    ensures var address := Truncate8(cfg.address);
      var id := FillIdentity(port, address, cfg.mainTopic, cache);
      PollDevice(cfg, port, parse, cache, inbox).online <==>
        && !id.failed
        && (Lookup(id.cache.vendor.value, id.cache.product.value).Some? ==>
              var m := Lookup(id.cache.vendor.value, id.cache.product.value).value;
              var ws := Dispatch(RoutesOf(m), cfg.mainTopic, parse, inbox);
              && !ReadoutOf(m, port, address, cfg.mainTopic, cfg.sensors).failed
              && forall i :: 0 <= i < |ws| ==> WriteAcknowledged(port, address, ws[i]))
  {
    var address := Truncate8(cfg.address);
    var id := FillIdentity(port, address, cfg.mainTopic, cache);
    if !id.failed {
      match Lookup(id.cache.vendor.value, id.cache.product.value)
      case None =>
      case Some(m) =>
        RunCodecFailure(m, port, address, cfg.mainTopic, cfg.sensors, parse, inbox);
    }
  }

  /** Failing DS18B20 reads never change the outcome: two ports that differ
      only in how single input registers answer give the same status and
      the same cache. */
  lemma SensorFailuresIgnored(cfg: DeviceConfig, port: Port, sensorRead: (uint8, uint16) -> Result<uint16>,
                              parse: string -> int, cache: DeviceCache, inbox: seq<Message>)
    ensures var q := port.(readInputRegister := sensorRead);
      && PollDevice(cfg, q, parse, cache, inbox).online == PollDevice(cfg, port, parse, cache, inbox).online
      && PollDevice(cfg, q, parse, cache, inbox).cache == PollDevice(cfg, port, parse, cache, inbox).cache
  {
    var q := port.(readInputRegister := sensorRead);
    var address := Truncate8(cfg.address);
    var id := FillIdentity(port, address, cfg.mainTopic, cache);
    assert FillIdentity(q, address, cfg.mainTopic, cache) == id;
    if !id.failed {
      var cq := CodecStage(cfg, q, parse, id.cache, inbox);
      var cp := CodecStage(cfg, port, parse, id.cache, inbox);
      assert cq.failed == cp.failed by {
        match Lookup(id.cache.vendor.value, id.cache.product.value)
        case None =>
        case Some(m) =>
          ReadoutFailureIgnoresSensors(m, port, sensorRead, address, cfg.mainTopic, cfg.sensors);
          ExecWritesUsesOnlyWrites(q, port, address, Dispatch(RoutesOf(m), cfg.mainTopic, parse, inbox));
      }
      ConcludeDependsOnFailure(cfg, id, cq, cp);
    }
  }

  /** The status and the cache at the end of a pass depend on the codec
      stage only through whether it threw. */
  lemma ConcludeDependsOnFailure(cfg: DeviceConfig, id: IdentityFill, c1: Trace, c2: Trace)
    requires forall e :: e in id.events ==> e.Identify? || e.Publish?
    requires forall e :: e in c1.events ==> CodecEvent(e)
    requires forall e :: e in c2.events ==> CodecEvent(e)
    requires c1.failed == c2.failed
    ensures Conclude(cfg, id, c1).online == Conclude(cfg, id, c2).online
    ensures Conclude(cfg, id, c1).cache == Conclude(cfg, id, c2).cache
  {
  }

  /** A read of the codec that throws ends the pass offline before the
      command buffer is drained: no command of this pass is written. This
      holds on the first pass too, where the identity is filled just
      before the codec runs. */
  lemma ReadFailureSkipsCommands(cfg: DeviceConfig, port: Port, parse: string -> int, cache: DeviceCache, inbox: seq<Message>)
    ensures var address := Truncate8(cfg.address);
      var id := FillIdentity(port, address, cfg.mainTopic, cache);
      (&& !id.failed
       && Lookup(id.cache.vendor.value, id.cache.product.value).Some?
       && ReadoutOf(Lookup(id.cache.vendor.value, id.cache.product.value).value, port, address, cfg.mainTopic, cfg.sensors).failed)
      ==>
      var r := PollDevice(cfg, port, parse, cache, inbox);
      && !r.online
      && forall e :: e in r.events ==> !e.Drain? && !e.IssueWrite?
  {
    var address := Truncate8(cfg.address);
    var id := FillIdentity(port, address, cfg.mainTopic, cache);
    if id.failed || Lookup(id.cache.vendor.value, id.cache.product.value).None? {
      return;
    }
    var m := Lookup(id.cache.vendor.value, id.cache.product.value).value;
    var readout := ReadoutOf(m, port, address, cfg.mainTopic, cfg.sensors);
    if !readout.failed {
      return;
    }
    var codec := CodecStage(cfg, port, parse, id.cache, inbox);
    assert codec == Trace(readout.events, true);
    ConcludeWithoutCommands(cfg, id, codec);
    assert PollDevice(cfg, port, parse, cache, inbox) == Conclude(cfg, id, codec);
  }

  /** A codec stage made only of reads and publications leaves the whole
      end of the pass free of drains and writes. */
  lemma ConcludeWithoutCommands(cfg: DeviceConfig, id: IdentityFill, codec: Trace)
    requires forall e :: e in id.events ==> e.Identify? || e.Publish?
    requires forall e :: e in codec.events ==> ReadoutEvent(e) && CodecEvent(e)
    ensures forall e :: e in Conclude(cfg, id, codec).events ==> !e.Drain? && !e.IssueWrite?
  {
    var r := Conclude(cfg, id, codec);
    forall e | e in r.events
      ensures !e.Drain? && !e.IssueWrite?
    {
      if e in codec.events {
        assert ReadoutEvent(e);
      }
    }
  }

  /** Once all three identity fields are stored, a pass queries none of
      them again; once the main-topic slot is set, a pass subscribes
      nothing. */
  lemma SettledDeviceQuiet(cfg: DeviceConfig, port: Port, parse: string -> int, cache: DeviceCache, inbox: seq<Message>)
    ensures var r := PollDevice(cfg, port, parse, cache, inbox);
      && (Identified(cache) ==> forall e :: e in r.events ==> !e.Identify?)
      && (cache.mainTopic != "" ==> forall e :: e in r.events ==> !e.Subscribe?)
  {
    var address := Truncate8(cfg.address);
    var id := FillIdentity(port, address, cfg.mainTopic, cache);
    if !id.failed {
      ConcludeQuiet(cfg, id, CodecStage(cfg, port, parse, id.cache, inbox));
    }
  }

  /** Consecutive passes over the same device, the cache of each handed to
      the next; `ports[k]` and `inboxes[k]` are what the field bus answers
      and what is buffered during pass k. The result is the final cache. */
  function RunCycles(cfg: DeviceConfig, ports: seq<Port>, parse: string -> int, cache: DeviceCache,
                     inboxes: seq<seq<Message>>): (c: DeviceCache)
    requires |ports| == |inboxes|
    ensures IdentityKept(cache, c)
    ensures cache.mainTopic != "" ==> c.mainTopic == cache.mainTopic
    ensures |ports| > 0 ==> c.status.Some?
    decreases |ports|
  {
    if |ports| == 0 then cache
    else
      RunCycles(cfg, ports[1..], parse, PollDevice(cfg, ports[0], parse, cache, inboxes[0]).cache, inboxes[1..])
  }

  /** After a pass that went online, the device stays identified through
      any later passes, and a pass after those, whatever the field bus
      answers then, is free of identification queries. */
  lemma {:induction false} OnlineThenNoRequery(cfg: DeviceConfig, ports: seq<Port>, parse: string -> int, cache: DeviceCache,
                                               inboxes: seq<seq<Message>>, port: Port, inbox: seq<Message>,
                                               laterPort: Port, laterInbox: seq<Message>)
    requires |ports| == |inboxes|
    requires PollDevice(cfg, port, parse, cache, inbox).online
    ensures var c := RunCycles(cfg, ports, parse, PollDevice(cfg, port, parse, cache, inbox).cache, inboxes);
      && Identified(c)
      && forall e :: e in PollDevice(cfg, laterPort, parse, c, laterInbox).events ==> !e.Identify?
  {
    var c := RunCycles(cfg, ports, parse, PollDevice(cfg, port, parse, cache, inbox).cache, inboxes);
    SettledDeviceQuiet(cfg, laterPort, parse, c, laterInbox);
  }

}

=== FILE: identity.dfy ===
/** The per-device cache the poll loop keeps between cycles: the identity
    strings (vendor, product, version) learned from the device, the
    main-topic slot that records the one-time subscription, and the last
    status. In each cycle the absent identity fields are queried in the
    order vendor, product, version, and the first query that fails ends
    the stage, so a later field is queried only when the earlier queries of
    the same cycle answered. A stored field is never queried again or
    overwritten. */
module Identity {
  import opened Outcomes
  import opened Words
  import opened Topics
  import opened Bus

  datatype Status = Online | Offline

  /** The cache entry of one device. `mainTopic` is empty until the device
      has been subscribed to. */
  datatype DeviceCache = DeviceCache(
    vendor: Option<string>,
    product: Option<string>,
    version: Option<string>,
    mainTopic: string,
    status: Option<Status>)

  /** The entry of a device never seen before. */
  const EmptyCache: DeviceCache := DeviceCache(None, None, None, "", None)

  /** Identification query index and published field of each identity
      field: vendor 0, product 1, version 2. */
  const IdentityFields: seq<string> := ["vendor", "product", "version"]

  /** A field, once known, keeps its value. */
  predicate Kept(before: Option<string>, after: Option<string>)
  {
    before.Some? ==> after == before
  }

  /** No identity field of `before` is lost or changed in `after`. */
  predicate IdentityKept(before: DeviceCache, after: DeviceCache)
  {
    && Kept(before.vendor, after.vendor)
    && Kept(before.product, after.product)
    && Kept(before.version, after.version)
  }

  /** All three identity fields are known. */
  predicate Identified(cache: DeviceCache)
  {
    cache.vendor.Some? && cache.product.Some? && cache.version.Some?
  }

  /** The outcome of one field's lazy fill. */
  datatype FieldFill = FieldFill(value: Option<string>, events: seq<Event>, failed: bool)

  /** One identity field: if absent, query it, store the answer (the empty
      string included) and publish it; if present, do nothing. */
  function FillField(port: Port, address: uint8, mainTopic: string, index: nat, current: Option<string>): (r: FieldFill)
    requires index < |IdentityFields|
    ensures Kept(current, r.value)
    ensures forall e :: e in r.events ==> e.Identify? || e.Publish?
    ensures Identify(index) in r.events <==> current.None?
    ensures current.Some? ==> r.events == [] && !r.failed
    ensures current.None? ==>
      r.events == [Identify(index)] +
        (if port.identification(address, index).Fail? then []
         else [Publish(Topic(mainTopic, IdentityFields[index]), Text(port.identification(address, index).value), true)])
    ensures r.failed <==> current.None? && port.identification(address, index).Fail?
    ensures r.failed ==> r.value.None?
    ensures !r.failed ==> r.value.Some?
    ensures current.None? && port.identification(address, index).Ok? ==>
      r.value == Some(port.identification(address, index).value)
      && Publish(Topic(mainTopic, IdentityFields[index]), Text(r.value.value), true) in r.events
  {
    if current.Some? then FieldFill(current, [], false)
    else
      match port.identification(address, index)
      case Fail => FieldFill(None, [Identify(index)], true)
      case Ok(s) =>
        FieldFill(Some(s), [Identify(index), Publish(Topic(mainTopic, IdentityFields[index]), Text(s), true)], false)
  }

  /** The outcome of the identity stage of a cycle. */
  datatype IdentityFill = IdentityFill(cache: DeviceCache, events: seq<Event>, failed: bool)

  /** Vendor, then product, then version, each filled lazily; the first
      failing query ends the stage, keeping what was stored before it. */
  function FillIdentity(port: Port, address: uint8, mainTopic: string, cache: DeviceCache): (r: IdentityFill)
    ensures IdentityKept(cache, r.cache)
    ensures forall e :: e in r.events ==> e.Identify? || e.Publish?
    ensures r.cache.mainTopic == cache.mainTopic && r.cache.status == cache.status
    ensures !r.failed ==> Identified(r.cache)
    ensures Identified(cache) ==> r == IdentityFill(cache, [], false)
    ensures r.failed <==>
      || (cache.vendor.None? && port.identification(address, 0).Fail?)
      || (cache.product.None? && port.identification(address, 1).Fail?)
      || (cache.version.None? && port.identification(address, 2).Fail?)
    // an answer is stored even when a later query of the same cycle fails
    ensures cache.vendor.None? && port.identification(address, 0).Ok? ==>
      r.cache.vendor == Some(port.identification(address, 0).value)
    ensures cache.product.None? && port.identification(address, 1).Ok?
            && (cache.vendor.Some? || port.identification(address, 0).Ok?) ==>
      r.cache.product == Some(port.identification(address, 1).value)
  {
    var v := FillField(port, address, mainTopic, 0, cache.vendor);
    var c1 := cache.(vendor := v.value);
    if v.failed then IdentityFill(c1, v.events, true)
    else
      var p := FillField(port, address, mainTopic, 1, c1.product);
      var c2 := c1.(product := p.value);
      if p.failed then IdentityFill(c2, v.events + p.events, true)
      else
        var w := FillField(port, address, mainTopic, 2, c2.version);
        IdentityFill(c2.(version := w.value), v.events + p.events + w.events, w.failed)
  }

  /** The value each identity field ends with: as it was if already known;
      otherwise the device's own answer when its query is reached and
      answers; otherwise still absent. A product or version that was never
      asked for is never stored. */
  lemma FillIdentityValues(port: Port, address: uint8, mainTopic: string, cache: DeviceCache)
    ensures var r := FillIdentity(port, address, mainTopic, cache);
      var vendorDone := cache.vendor.Some? || port.identification(address, 0).Ok?;
      var productDone := vendorDone && (cache.product.Some? || port.identification(address, 1).Ok?);
      && r.cache.vendor ==
           (if cache.vendor.Some? then cache.vendor
            else if port.identification(address, 0).Ok? then Some(port.identification(address, 0).value)
            else None)
      && r.cache.product ==
           (if cache.product.Some? then cache.product
            else if vendorDone && port.identification(address, 1).Ok? then Some(port.identification(address, 1).value)
            else None)
      && r.cache.version ==
           (if cache.version.Some? then cache.version
            else if productDone && port.identification(address, 2).Ok? then Some(port.identification(address, 2).value)
            else None)
  {
  }

  /** Each identification query is issued only while its field is absent:
      the vendor whenever it is absent, the product when it is absent and
      the vendor stage succeeded, the version when it is absent and both
      earlier stages succeeded. */
  lemma FillIdentityQueries(port: Port, address: uint8, mainTopic: string, cache: DeviceCache)
    ensures var r := FillIdentity(port, address, mainTopic, cache);
      && (Identify(0) in r.events <==> cache.vendor.None?)
      && (Identify(1) in r.events <==>
            cache.product.None? && (cache.vendor.Some? || port.identification(address, 0).Ok?))
      && (Identify(2) in r.events <==>
            && cache.version.None?
            && (cache.vendor.Some? || port.identification(address, 0).Ok?)
            && (cache.product.Some? || port.identification(address, 1).Ok?))
  {
    var v := FillField(port, address, mainTopic, 0, cache.vendor);
    var p := FillField(port, address, mainTopic, 1, cache.product);
    var w := FillField(port, address, mainTopic, 2, cache.version);
    assert Identify(1) !in v.events && Identify(2) !in v.events by {
      if cache.vendor.None? {
        assert v.events[0] == Identify(0);
      }
    }
    assert Identify(0) !in p.events && Identify(2) !in p.events by {
      if cache.product.None? {
        assert p.events[0] == Identify(1);
      }
    }
    assert Identify(0) !in w.events && Identify(1) !in w.events by {
      if cache.version.None? {
        assert w.events[0] == Identify(2);
      }
    }
  }

  /** The outcome of the subscription gate. */
  datatype Gate = Gate(cache: DeviceCache, events: seq<Event>)

  /** Once the identity stage has succeeded: if the main-topic slot is
      empty, record the main topic and subscribe to `maintopic/+`. */
  function SubscriptionGate(cache: DeviceCache, mainTopic: string): (g: Gate)
    ensures Subscribe(Topic(mainTopic, "+")) in g.events <==> cache.mainTopic == ""
    ensures cache.mainTopic != "" ==> g == Gate(cache, [])
    ensures cache.mainTopic == "" ==> g == Gate(cache.(mainTopic := mainTopic), [Subscribe(Topic(mainTopic, "+"))])
    ensures g.cache.mainTopic == "" ==> mainTopic == ""
    ensures g.cache == cache.(mainTopic := g.cache.mainTopic)
  {
    if cache.mainTopic == "" then Gate(cache.(mainTopic := mainTopic), [Subscribe(Topic(mainTopic, "+"))])
    else Gate(cache, [])
  }

  /** With a non-empty main topic the subscription happens at most once:
      after one pass through the gate, the next pass subscribes nothing. */
  lemma SubscribeOnce(cache: DeviceCache, mainTopic: string)
    requires mainTopic != ""
    ensures SubscriptionGate(SubscriptionGate(cache, mainTopic).cache, mainTopic).events == []
  {
  }

}

=== FILE: outcomes.dfy ===
/** Optional values and value-or-exception results used throughout the model. */
module Outcomes {

  /** A value that may be absent, such as an identity field not yet queried. */
  datatype Option<T> = None | Some(value: T)

  /** The outcome of a call into the field-bus library: a value, or `Fail`
      for any exception the library throws (timeout, malformed frame, ...). */
  datatype Result<T> = Ok(value: T) | Fail

}

=== FILE: rfidkey.dfy ===
/** The key of a 125 kHz RFID reader. The reader exposes an input-register
    block whose register 0 holds the key length n and whose registers 1..n
    hold one key byte each (in the low byte). The gateway renders the key as
    n groups of two lower-case hex digits separated by ':'. */
module RfidKey {
  import opened Words

  /** A 4-bit value. */
  type nibble = x: int | 0 <= x < 16

  /** Number of registers the gateway reads from the reader: the length word
      and up to ten key bytes. */
  const BlockSize: nat := 11

  predicate IsHexChar(c: char)
  {
    '0' <= c <= '9' || 'a' <= c <= 'f'
  }

  /** The value of a lower-case hex digit. */
  function HexValue(c: char): nibble
    requires IsHexChar(c)
  {
    if c <= '9' then c as int - '0' as int else c as int - 'a' as int + 10
  }

  /** A nibble as a lower-case hex digit: `'a' - 10 + n` above 9, else
      `'0' + n`. */
  function HexDigit(n: nibble): (c: char)
    ensures IsHexChar(c)
    ensures HexValue(c) == n
  {
    if n > 9 then ('a' as int - 10 + n) as char else ('0' as int + n) as char
  }

  /** The group of one key register: the hex digits of `(v >> 4) & 0x0f`
      and of `v & 0x0f`, which together spell the register's low byte. */
  function Group(v: uint16): (g: string)
    ensures |g| == 2 && IsHexChar(g[0]) && IsHexChar(g[1])
    ensures 16 * HexValue(g[0]) + HexValue(g[1]) == v % 256
  {
    LowByteNibbles(v);
    [HexDigit((v / 16) % 16), HexDigit(v % 16)]
  }

  /** The two nibbles of the low byte of `v` spell the low byte. */
  lemma LowByteNibbles(v: uint16)
    ensures 16 * ((v / 16) % 16) + v % 16 == v % 256
  {
    var q := v / 256;
    var b := v % 256;
    assert v == 256 * q + b;
    assert v / 16 == 16 * q + b / 16;
    assert (v / 16) % 16 == b / 16;
    assert v % 16 == b % 16;
  }

  /** The key text of the key registers `data`: their groups joined by ':'. */
  function KeyText(data: seq<uint16>): (s: string)
    ensures |s| == if |data| == 0 then 0 else 3 * |data| - 1
    decreases |data|
  {
    if |data| == 0 then ""
    else if |data| == 1 then Group(data[0])
    else Group(data[0]) + ":" + KeyText(data[1..])
  }

  /** Character j of the key of `data`, position by position: each key byte
      takes a cell of three characters, two hex digits and a ':' (the last
      cell has no ':'). */
  function KeyCharAt(data: seq<uint16>, j: nat): char
    requires j / 3 < |data|
  {
    if j % 3 == 2 then ':' else Group(data[j / 3])[j % 3]
  }

  /** `key` is the rendering of the key registers `data`: 3n-1 characters,
      each the one `KeyCharAt` prescribes. */
  predicate IsKeyOf(key: string, data: seq<uint16>)
  {
    && 1 <= |data|
    && |key| == 3 * |data| - 1
    && forall j :: 0 <= j < |key| ==> KeyCharAt(data, j) == key[j]
  }

  /** `KeyText` renders the key position by position as `IsKeyOf` says. */
  lemma {:induction false} KeyTextIsKey(data: seq<uint16>)
    requires 1 <= |data|
    ensures IsKeyOf(KeyText(data), data)
    decreases |data|
  {
    if |data| > 1 {
      var rest := data[1..];
      KeyTextIsKey(rest);
      var key := KeyText(data);
      assert key == Group(data[0]) + ":" + KeyText(rest);
      forall j | 0 <= j < |key|
        ensures KeyCharAt(data, j) == key[j]
      {
        if j < 2 {
          assert key[j] == Group(data[0])[j];
        } else if j == 2 {
          assert key[j] == ':';
        } else {
          assert key[j] == KeyText(rest)[j - 3];
          assert KeyCharAt(rest, j - 3) == KeyText(rest)[j - 3];
          assert (j - 3) % 3 == j % 3 && (j - 3) / 3 == j / 3 - 1;
          assert rest[j / 3 - 1] == data[j / 3];
        }
      }
    }
  }

  /** Appending one key register appends a separator and its group. */
  lemma {:induction false} KeyTextSnoc(data: seq<uint16>, v: uint16)
    requires 1 <= |data|
    ensures KeyText(data + [v]) == KeyText(data) + ":" + Group(v)
    decreases |data|
  {
    if |data| == 1 {
      assert (data + [v])[1..] == [v];
    } else {
      assert (data + [v])[1..] == data[1..] + [v];
      KeyTextSnoc(data[1..], v);
    }
  }

  /** A rendered key uses only the characters `0-9a-f:`. */
  lemma KeyAlphabet(key: string, data: seq<uint16>)
    requires IsKeyOf(key, data)
    ensures forall j :: 0 <= j < |key| ==> IsHexChar(key[j]) || key[j] == ':'
  {
    forall j | 0 <= j < |key|
      ensures IsHexChar(key[j]) || key[j] == ':'
    {
      assert KeyCharAt(data, j) == key[j];
    }
  }

  /** Group k of a rendered key decodes back to the low byte of key
      register k, and is followed by ':' unless it is the last. */
  lemma KeyGroupDecodes(key: string, data: seq<uint16>, k: nat)
    requires IsKeyOf(key, data)
    requires k < |data|
    ensures IsHexChar(key[3 * k]) && IsHexChar(key[3 * k + 1])
    ensures 16 * HexValue(key[3 * k]) + HexValue(key[3 * k + 1]) == data[k] % 256
    ensures k < |data| - 1 ==> key[3 * k + 2] == ':'
  {
    var j := 3 * k;
    assert j / 3 == k && j % 3 == 0;
    assert (j + 1) / 3 == k && (j + 1) % 3 == 1;
    assert KeyCharAt(data, j) == key[j];
    assert KeyCharAt(data, j + 1) == key[j + 1];
    if k < |data| - 1 {
      assert (j + 2) % 3 == 2;
      assert KeyCharAt(data, j + 2) == key[j + 2];
    }
  }

  /** What one read of the register block yields. */
  datatype KeyRead =
    | NoKey              // length word 0: no card, nothing is published
    | Key(text: string)  // the rendered key
    | Overrun            // length word above 10: the loop would index past the block

  /** The key published for one read of the reader's register block. */
  function KeyFromRegisters(regs: seq<uint16>): (r: KeyRead)
    requires |regs| == BlockSize
    ensures r.NoKey? <==> regs[0] == 0
    ensures r.Overrun? <==> regs[0] > 10
    ensures r.Key? ==> IsKeyOf(r.text, regs[1..regs[0] + 1])
  {
    if regs[0] == 0 then NoKey
    else if regs[0] > 10 then Overrun
    else
      KeyTextIsKey(regs[1..regs[0] + 1]);
      Key(KeyText(regs[1..regs[0] + 1]))
  }

  /** The rendering loop as the reader codec runs it: for i in 1..n append
      the two digits of register i, then ':' unless i is the last. */
  method BuildKey(regs: seq<uint16>) returns (key: string)
    requires 1 <= |regs|
    requires 1 <= regs[0] < |regs|
    ensures IsKeyOf(key, regs[1..regs[0] + 1])
  {
    var n := regs[0];
    key := "";
    var i := 1;
    while i <= n
      invariant 1 <= i <= n + 1
      invariant i == 1 ==> key == ""
      invariant i > 1 ==> key == KeyText(regs[1..i]) + (if i <= n then ":" else "")
    {
      key := key + [HexDigit((regs[i] / 16) % 16)];
      key := key + [HexDigit(regs[i] % 16)];
      if i > 1 {
        KeyTextSnoc(regs[1..i], regs[i]);
        assert regs[1..i + 1] == regs[1..i] + [regs[i]];
      } else {
        assert regs[1..2] == [regs[1]];
      }
      if i < n {
        key := key + ":";
      }
      i := i + 1;
    }
    KeyTextIsKey(regs[1..n + 1]);
  }

}

=== FILE: topics.dfy ===
/** Topic names on the message bus: `<maintopic>/<field>`, where some field
    names end in a decimal index (`input3`, `temperature12`). */
module Topics {

  /** The topic of one field of a device: `maintopic + "/" + field`. */
  function Topic(mainTopic: string, field: string): string
  {
    mainTopic + "/" + field
  }

  /** Below one main topic, distinct fields give distinct topics. */
  lemma TopicInjective(mainTopic: string, a: string, b: string)
    requires Topic(mainTopic, a) == Topic(mainTopic, b)
    ensures a == b
  {
    assert a == Topic(mainTopic, a)[|mainTopic| + 1..];
    assert b == Topic(mainTopic, b)[|mainTopic| + 1..];
  }

  predicate IsDigit(c: char)
  {
    '0' <= c <= '9'
  }

  predicate AllDigits(s: string)
  {
    forall i :: 0 <= i < |s| ==> IsDigit(s[i])
  }

  /** The value of a string of decimal digits, most significant first. */
  function DecimalValue(s: string): nat
    requires AllDigits(s)
    decreases |s|
  {
    if |s| == 0 then 0
    else 10 * DecimalValue(s[..|s| - 1]) + (s[|s| - 1] as int - '0' as int)
  }

  /** The decimal rendering of a natural number, as `String + n` produces it
      for the indices appended to field names. */
  function Decimal(n: nat): (s: string)
    ensures 1 <= |s|
    ensures AllDigits(s)
    ensures DecimalValue(s) == n
    ensures |s| == 1 || s[0] != '0'
    decreases n
  {
    if n < 10 then [Digit(n)]
    else
      var high := Decimal(n / 10);
      var s := high + [Digit(n % 10)];
      assert s[..|s| - 1] == high;
      assert high[0] != '0' by {
        if |high| == 1 {
          assert DecimalValue(high) == high[0] as int - '0' as int;
        }
      }
      assert s[0] == high[0];
      s
  }

  /** The character of one decimal digit. */
  function Digit(d: nat): (c: char)
    requires d < 10
    ensures IsDigit(c) && c as int - '0' as int == d
  {
    ('0' as int + d) as char
  }

}

=== FILE: words.dfy ===
/** Fixed-width register words as the field bus delivers them, and the
    integer conversions the gateway applies before publishing or writing. */
module Words {

  /** An unsigned 8-bit value (a field-bus device address). */
  type uint8 = x: int | 0 <= x < 0x100

  /** An unsigned 16-bit register value. */
  type uint16 = x: int | 0 <= x < 0x1_0000

  /** An unsigned 32-bit value. */
  type uint32 = x: int | 0 <= x < 0x1_0000_0000

  /** Two registers assembled into one 32-bit value, low register first:
      `(uint32_t)lo | (uint32_t)hi << 16`. The two operands of the `|` have
      disjoint bits, so the bitwise or is the sum written here. The high
      register becomes the upper half and the low register the lower half. */
  function Assemble32(lo: uint16, hi: uint16): (r: uint32)
    ensures r / 0x1_0000 == hi
    ensures r % 0x1_0000 == lo
  {
    lo + 0x1_0000 * hi
  }

  /** The inverse of `Assemble32`: a 32-bit value split into its low and
      high register. */
  function Split32(v: uint32): (r: (uint16, uint16))
    ensures Assemble32(r.0, r.1) == v
  {
    (v % 0x1_0000, v / 0x1_0000)
  }

  /** Splitting an assembled value recovers both registers exactly, so
      `Assemble32` is injective and `Split32` is its two-sided inverse. */
  lemma SplitAssemble(lo: uint16, hi: uint16)
    ensures Split32(Assemble32(lo, hi)) == (lo, hi)
  {
  }

  /** The low 16 bits of an integer: what a C++ conversion to `uint16_t`
      (or to `int16_t` and on to an unsigned register) keeps. */
  function Truncate16(n: int): (r: uint16)
    ensures (n - r) % 0x1_0000 == 0
    ensures 0 <= n < 0x1_0000 ==> r == n
  {
    n % 0x1_0000
  }

  /** The low 8 bits of an integer: the conversion to `uint8_t`. */
  function Truncate8(n: int): (r: uint8)
    ensures (n - r) % 0x100 == 0
    ensures 0 <= n < 0x100 ==> r == n
  {
    n % 0x100
  }

  /** The low 32 bits of an integer: the conversion to `uint32_t`. */
  function Truncate32(n: int): (r: uint32)
    ensures (n - r) % 0x1_0000_0000 == 0
    ensures 0 <= n < 0x1_0000_0000 ==> r == n
  {
    n % 0x1_0000_0000
  }

  /** A register reinterpreted as a two's-complement `int16_t`: the unique
      value in the signed range with the same 16-bit pattern. */
  function ToInt16(v: uint16): (r: int)
    ensures -0x8000 <= r < 0x8000
    ensures Truncate16(r) == v
    ensures r < 0 <==> v >= 0x8000
  {
    if v < 0x8000 then v else v - 0x1_0000
  }

  /** A 32-bit value reinterpreted as a two's-complement `int32_t`. */
  function ToInt32(v: uint32): (r: int)
    ensures -0x8000_0000 <= r < 0x8000_0000
    ensures Truncate32(r) == v
    ensures r < 0 <==> v >= 0x8000_0000
  {
    if v < 0x8000_0000 then v else v - 0x1_0000_0000
  }

  /** Every `int16_t` survives the round trip through its register pattern. */
  lemma Int16RoundTrip(x: int)
    requires -0x8000 <= x < 0x8000
    ensures ToInt16(Truncate16(x)) == x
  {
    if x < 0 {
      assert Truncate16(x) == x + 0x1_0000;
    }
  }

  /** Every `int32_t` survives the round trip through its 32-bit pattern. */
  lemma Int32RoundTrip(x: int)
    requires -0x8000_0000 <= x < 0x8000_0000
    ensures ToInt32(Truncate32(x)) == x
  {
    if x < 0 {
      assert Truncate32(x) == x + 0x1_0000_0000;
    }
  }

  /** A signed 32-bit reading assembled from two registers, low first, is
      negative exactly when the high register has its top bit set, and is
      the assembled value shifted down by 2^32 in that case. */
  lemma SignedAssembleSign(lo: uint16, hi: uint16)
    ensures ToInt32(Assemble32(lo, hi)) < 0 <==> hi >= 0x8000
    ensures hi < 0x8000 ==> ToInt32(Assemble32(lo, hi)) == lo + 0x1_0000 * hi
    ensures hi >= 0x8000 ==> ToInt32(Assemble32(lo, hi)) == lo + 0x1_0000 * hi - 0x1_0000_0000
  {
    var v := Assemble32(lo, hi);
    if hi >= 0x8000 {
      assert v >= 0x1_0000 * 0x8000;
    } else {
      assert v < 0x1_0000 + 0x1_0000 * 0x7FFF;
    }
  }

}
